=== FILE: README.md ===
# tablesorter request-to-query compiler, in Dafny

This project models the server side of the jQuery tablesorter Rails utilities. That side
is the `Handler` class (`handler.rb`) and its per-column configuration object `Filter`
(`filter.rb`). A controller registers one `Filter` per table column with
`create_filter_info`. For each request it then calls `query_data`, passing the request
parameters `page`, `size`, `sort` and `filter` and a base ActiveRecord relation. The
handler does the following:

- It compiles the global search text (filter key `"999"`) into one WHERE that ORs a
  condition over every non-having filter.
- It compiles each per-column filter text into one WHERE that ANDs the per-column
  conditions. A filter with a `having` expression but neither a column nor a `query`
  proc becomes a HAVING clause instead.
- It counts the total rows and the filtered rows.
- It adds LIMIT/OFFSET unless the page size is `all` or covers every row.
- It applies `reorder` for each sort entry. The parity of the entry's `order.to_i`
  decides the direction: even ascends, odd descends.

ActiveRecord is replaced by a symbolic relation: a model class plus the list of calls
made on it (`WhereOp`, `HavingOp`, `ReorderOp`, `LimitOp`, `OffsetOp`, `DistinctOp`).
What the handler cannot see is a parameter of type `Env`:
- `relation.blank?`;
- `count`;
- the user-supplied `values`, `query` and `sorter_query` procs.

Ruby's own rules are written out as small pure functions in module `Ruby`:
- truthiness;
- `blank?` with the Unicode `[[:space:]]` set;
- `presence`;
- `String#strip`;
- `String#to_i`, including a sign, leading whitespace and `_` between digits;
- `Integer#to_s`;
- the `/\A\d+\Z/` match.

Modules:
- `Ruby` (`ruby.dfy`) holds the Ruby and ActiveSupport primitives.
- `Relation` (`relation.dfy`) holds the symbolic relation, `Array#join` and placeholder
  counting.
- `AjaxFilter` (`filter.dfy`) is `Filter`.
- `AjaxHandler` (`handler.dfy`) is `Handler`.
- `ApplyFilterProperties` (`filter_properties.dfy`) covers `apply_filter`.
- `PhaseProperties` (`phase_properties.dfy`) covers the global and per-column phases and
  placeholder balance end to end.
- `QueryDataProperties` (`query_properties.dfy`) covers sorting, pagination and
  `query_data`.

In several places the code does something a tidier design would do differently. The model
follows the code in each of them:
- A value-mapping proc gives an OR of `LIKE`s, one per mapped value. It does not give an
  `IN` list.
- The filtered count is `count("table.id")` without `distinct`. It is re-run whenever a
  filter hash was sent, even an empty one.
- Having filters are left out of the global OR. No id sub-query is built for them.
- The global slot stays in the filter hash. In the per-column phase its entry reaches only
  filters at position 999 that are not global.
- Sorting uses `reorder`, so a later sort entry replaces an earlier one. The entries are
  not combined into one ORDER BY list.
- On an integer column, a value that is not all digits after `strip` becomes `0 = 1`.
- `apply_filter` tries a column first, then a `query` proc, then a having expression. A
  filter with a column or a `query` proc ignores its having expression in the per-column
  phase.

## Model

| member | source | states |
|---|---|---|
| AjaxFilter.Filter.New | lib/jquery-tablesorter/rails-utils/ajax/filter.rb:10-13 | the options are stored as given; a truthy position is kept; a nil or false position becomes 999 exactly when the `global` option is truthy, and nil otherwise |
| AjaxFilter.Filter.IsNoop | lib/jquery-tablesorter/rails-utils/ajax/filter.rb:16-18 | a boolean, true exactly when the `noop` option is truthy |
| AjaxFilter.Filter.IsGlobal | lib/jquery-tablesorter/rails-utils/ajax/filter.rb:21-23 | the option itself when it is truthy, and `false` when it is nil or false |
| AjaxFilter.Filter.DataType | lib/jquery-tablesorter/rails-utils/ajax/filter.rb:26-28 | nil exactly when the `data_type` option is blank, the stored value unchanged otherwise |
| AjaxFilter.Filter.ModelClass | lib/jquery-tablesorter/rails-utils/ajax/filter.rb:31-33 | nil exactly when the `class` option is blank, the stored value unchanged otherwise |
| AjaxFilter.Filter.Column | lib/jquery-tablesorter/rails-utils/ajax/filter.rb:36-38 | nil exactly when the `column` option is blank, the stored value unchanged otherwise |
| AjaxFilter.Filter.Values | lib/jquery-tablesorter/rails-utils/ajax/filter.rb:41-43 | nil exactly when the `values` option is blank, the stored value unchanged otherwise |
| AjaxFilter.Filter.QueryProc | lib/jquery-tablesorter/rails-utils/ajax/filter.rb:46-48 | nil exactly when the `query` option is blank, the stored value unchanged otherwise |
| AjaxFilter.Filter.SorterQuery | lib/jquery-tablesorter/rails-utils/ajax/filter.rb:51-53 | nil exactly when the `sorter_query` option is blank, the stored value unchanged otherwise |
| AjaxFilter.Filter.Having | lib/jquery-tablesorter/rails-utils/ajax/filter.rb:56-58 | nil exactly when the `having` option is blank, the stored value unchanged otherwise |
| Ruby.Presence | lib/jquery-tablesorter/rails-utils/ajax/filter.rb:27 | `presence` is nil exactly for a blank object and the object itself otherwise |
| Ruby.LStrip | lib/jquery-tablesorter/rails-utils/ajax/handler.rb:105 | the left half of `strip`: a suffix of the input, only strippable whitespace removed, and none left at the front |
| Ruby.RStrip | lib/jquery-tablesorter/rails-utils/ajax/handler.rb:105 | the right half of `strip`: a prefix of the input, only strippable whitespace removed, and none left at the end |
| Ruby.Strip | lib/jquery-tablesorter/rails-utils/ajax/handler.rb:105 | the result is no longer than the input, and neither its first nor its last character is strippable whitespace |
| Ruby.StripCuts | lib/jquery-tablesorter/rails-utils/ajax/handler.rb:105 | `strip` returns a middle slice of its input: it cuts exactly the leading run that `lstrip` removes and a trailing run, all strippable whitespace |
| Ruby.StrippedDigitsPattern | lib/jquery-tablesorter/rails-utils/ajax/handler.rb:105 | after `strip`, `/\A\d+\Z/` matches exactly the non-empty all-digit strings |
| Ruby.ToI | lib/jquery-tablesorter/rails-utils/ajax/handler.rb:159 | `to_i` is 0 when no sign or digit follows the leading whitespace |
| Ruby.ToIOfIntToString | lib/jquery-tablesorter/rails-utils/ajax/handler.rb:127 | `to_i` reads back every integer `to_s` writes, so `999.to_s` selects position 999 |
| Relation.Query.Where | lib/jquery-tablesorter/rails-utils/ajax/handler.rb:147 | `where` leaves the relation unchanged exactly for a lone blank condition, else appends one WHERE; class and ordering are kept |
| Relation.Query.Having | lib/jquery-tablesorter/rails-utils/ajax/handler.rb:119 | `having` appends one HAVING call and keeps class and ordering |
| Relation.Query.Reorder | lib/jquery-tablesorter/rails-utils/ajax/handler.rb:189 | after `reorder(clause)` the ordering in force is exactly `clause`, whatever came before |
| Relation.Query.Limit | lib/jquery-tablesorter/rails-utils/ajax/handler.rb:202 | `limit` appends one LIMIT and keeps the ordering |
| Relation.Query.Offset | lib/jquery-tablesorter/rails-utils/ajax/handler.rb:202 | `offset` appends one OFFSET and keeps the ordering |
| Relation.JoinPlaceholders | lib/jquery-tablesorter/rails-utils/ajax/handler.rb:113 | joining fragments with a `?`-free separator keeps the total number of placeholders |
| AjaxHandler.CreateFilterInfo | lib/jquery-tablesorter/rails-utils/ajax/handler.rb:14-20 | appends exactly `Filter.new(position, options)` at the end and returns it; earlier filters and every lookup that already succeeded are unchanged; a position free before now finds the new filter |
| AjaxHandler.FindIndexExtend | lib/jquery-tablesorter/rails-utils/ajax/handler.rb:17 | appending a filter keeps every earlier first match and makes a position free before find the new one |
| AjaxHandler.FindIndexSnoc | lib/jquery-tablesorter/rails-utils/ajax/handler.rb:17 | the first match after appending a filter is the earlier first match, else the new filter when it sits at the position, else none |
| AjaxHandler.FindIndexSnocKept | lib/jquery-tablesorter/rails-utils/ajax/handler.rb:17 | appending a filter keeps an existing first match where it was |
| AjaxHandler.FindIndexSnocNew | lib/jquery-tablesorter/rails-utils/ajax/handler.rb:17 | for a position no filter held, the appended filter is found exactly when it sits there |
| AjaxHandler.FindIndex | lib/jquery-tablesorter/rails-utils/ajax/handler.rb:179 | the index of the first filter at the position; none exactly when no filter is there |
| AjaxHandler.Find | lib/jquery-tablesorter/rails-utils/ajax/handler.rb:179 | the first registered filter at the position (the one at `FindIndex`), none exactly when no filter is there |
| AjaxHandler.Lookup | lib/jquery-tablesorter/rails-utils/ajax/handler.rb:127 | a value stored under the key, absent exactly when no pair has that key |
| AjaxHandler.ValuePredicates | lib/jquery-tablesorter/rails-utils/ajax/handler.rb:100-111 | one predicate per value, in order: `0 = 1` for a value the integer guard rejects, the LIKE predicate otherwise |
| AjaxHandler.ValueBinds | lib/jquery-tablesorter/rails-utils/ajax/handler.rb:104-110 | one bound value per value that passes the integer guard |
| AjaxHandler.ValueBindsAlign | lib/jquery-tablesorter/rails-utils/ajax/handler.rb:104-110 | the value `%v%` is bound at the position equal to the number of LIKEs before `v` |
| AjaxHandler.LikeCountMonotone | lib/jquery-tablesorter/rails-utils/ajax/handler.rb:104-110 | a prefix of the values never holds more LIKEs than the whole list |
| AjaxHandler.ColumnFragments | lib/jquery-tablesorter/rails-utils/ajax/handler.rb:113 | no fragment exactly when there are no predicates; otherwise one fragment, which is `(` and `)` around the predicates joined with ` OR ` |
| AjaxHandler.ApplyFilter | lib/jquery-tablesorter/rails-utils/ajax/handler.rb:83-123 | no fragments, no values and the same relation for a blank relation, a blank value or a noop filter; a column filter keeps the relation and yields at most one fragment; otherwise an active filter with a `query` proc returns exactly what the proc returns, having expression or not; with neither column nor `query` proc there are no fragments, and without a having expression too the relation is unchanged |
| AjaxHandler.Collect | lib/jquery-tablesorter/rails-utils/ajax/handler.rb:139-144 | one loop step: the relation becomes the one `apply_filter` returned; fragments and values are only appended to; a filter yielding no fragment adds neither fragments nor values, otherwise both are appended |
| AjaxHandler.GlobalFold | lib/jquery-tablesorter/rails-utils/ajax/handler.rb:135-145 | the global loop only appends to the collected fragments and values, and without `query` procs it never changes the relation |
| AjaxHandler.ApplyGlobalFilters | lib/jquery-tablesorter/rails-utils/ajax/handler.rb:126-148 | the global phase is the identity when `filter["999"]` is absent or blank; without `query` procs it keeps the model class and the ordering |
| AjaxHandler.EntryFold | lib/jquery-tablesorter/rails-utils/ajax/handler.rb:159-169 | the loop over one entry's filters only appends to the collected fragments and values; without `query` procs it keeps the model class and the ordering |
| AjaxHandler.EntriesFold | lib/jquery-tablesorter/rails-utils/ajax/handler.rb:158-170 | the loop over the filter entries only appends to the collected fragments and values; without `query` procs it keeps the model class and the ordering |
| AjaxHandler.ApplyFilters | lib/jquery-tablesorter/rails-utils/ajax/handler.rb:151-173 | without a filter hash the relation is unchanged; without `query` procs the model class and the ordering are kept |
| AjaxHandler.DirectionOf | lib/jquery-tablesorter/rails-utils/ajax/handler.rb:178 | ascending exactly for an even `to_i`, descending exactly for an odd one |
| AjaxHandler.SortStep | lib/jquery-tablesorter/rails-utils/ajax/handler.rb:177-190 | an entry whose `idx.to_i` names no filter changes nothing; without `sorter_query` procs a resolved entry appends exactly one `reorder` by that filter's `table.column dir NULLS LAST` and keeps the model class |
| AjaxHandler.SortFold | lib/jquery-tablesorter/rails-utils/ajax/handler.rb:177-191 | without `sorter_query` procs the sort loop keeps the model class and adds at most one call per entry |
| AjaxHandler.ApplySorting | lib/jquery-tablesorter/rails-utils/ajax/handler.rb:176-194 | without sort parameters the relation is unchanged; without `sorter_query` procs the model class is kept |
| AjaxHandler.HandlePagination | lib/jquery-tablesorter/rails-utils/ajax/handler.rb:197-203 | the relation is unchanged exactly when `size` is `all` or `size.to_i` reaches the total; otherwise it gains `limit(size)` then `offset(size * page)`; the ordering is kept |
| AjaxHandler.RecordCounts | lib/jquery-tablesorter/rails-utils/ajax/handler.rb:58-80 | without a filter hash the filtered count is the total; a grouped count counts its keys, for both counts |
| AjaxHandler.QueryData | lib/jquery-tablesorter/rails-utils/ajax/handler.rb:29-50 | without a filter hash the filtered count equals the total |
| ApplyFilterProperties.ColumnTargetPlaceholders | lib/jquery-tablesorter/rails-utils/ajax/handler.rb:94-98 | the column target, with or without `date_trunc`, adds no placeholder beyond those in the table and column names |
| ApplyFilterProperties.LikePredicatePlaceholders | lib/jquery-tablesorter/rails-utils/ajax/handler.rb:108 | a LIKE predicate has exactly one placeholder more than its target |
| ApplyFilterProperties.ValuePredicatesPlaceholders | lib/jquery-tablesorter/rails-utils/ajax/handler.rb:104-111 | with a `?`-free target, the predicates hold one placeholder per LIKE |
| ApplyFilterProperties.ColumnFilterBalanced | lib/jquery-tablesorter/rails-utils/ajax/handler.rb:93-113 | with `?`-free names, a column filter keeps the relation and binds exactly one value per placeholder |
| ApplyFilterProperties.ColumnFragmentsIgnoreText | lib/jquery-tablesorter/rails-utils/ajax/handler.rb:104-113 | two filter texts whose values meet the integer guard alike give the same fragments, so user text never enters the SQL |
| ApplyFilterProperties.ColumnFilterBindsText | lib/jquery-tablesorter/rails-utils/ajax/handler.rb:104-110 | each value that passes the guard travels as the bound value `%v%` at its own placeholder |
| ApplyFilterProperties.PlainColumnFilter | lib/jquery-tablesorter/rails-utils/ajax/handler.rb:93-113 | without a `values` proc a column filter yields `(0 = 1)` with no value for a non-numeric text on an integer column, else one parenthesised LIKE bound to `%text%` |
| ApplyFilterProperties.ColumnFilterOrGroup | lib/jquery-tablesorter/rails-utils/ajax/handler.rb:100-113 | a column filter, mapped by `values` or not, yields the per-value predicates as one parenthesised ` OR ` group bound to the values that pass the guard, and no fragment for an empty value list |
| ApplyFilterProperties.UnguardedBinds | lib/jquery-tablesorter/rails-utils/ajax/handler.rb:104-110 | on a column that is not an integer column, every value is bound as `%value%`, in order |
| ApplyFilterProperties.MappedValuesOrLikes | lib/jquery-tablesorter/rails-utils/ajax/handler.rb:89-113 | values mapped by a `values` proc give an OR of one LIKE per mapped value, each bound to its own `%value%`, and no `IN` list |
| ApplyFilterProperties.HavingFilterAddsHaving | lib/jquery-tablesorter/rails-utils/ajax/handler.rb:118-119 | a having filter appends exactly one HAVING bound to `%first value%` and yields no WHERE fragment |
| ApplyFilterProperties.HavingFragmentPlaceholders | lib/jquery-tablesorter/rails-utils/ajax/handler.rb:119 | the HAVING fragment has exactly one placeholder more than the having expression |
| PhaseProperties.GlobalFoldIsReference | lib/jquery-tablesorter/rails-utils/ajax/handler.rb:131-145 | without `query` procs the global loop keeps the relation and collects the per-filter contributions, each computed on the original relation, in registration order |
| PhaseProperties.GlobalFoldIgnoresHaving | lib/jquery-tablesorter/rails-utils/ajax/handler.rb:137 | removing the having filters from the registry does not change the global loop |
| PhaseProperties.WithoutHaving | lib/jquery-tablesorter/rails-utils/ajax/handler.rb:137 | keeps exactly the registered filters without a having expression |
| PhaseProperties.GlobalPhaseIsOneWhere | lib/jquery-tablesorter/rails-utils/ajax/handler.rb:126-148 | with a non-blank global text the phase adds one WHERE: the contributions joined with ` OR `, their values bound in the same order |
| PhaseProperties.GlobalValueKey | lib/jquery-tablesorter/rails-utils/ajax/handler.rb:127 | the global text is read under the key `"999"` |
| PhaseProperties.ContributionBalanced | lib/jquery-tablesorter/rails-utils/ajax/handler.rb:139-144 | one filter's global contribution binds one value per placeholder |
| PhaseProperties.GlobalReferenceBalanced | lib/jquery-tablesorter/rails-utils/ajax/handler.rb:135-147 | the whole global OR binds one value per placeholder |
| PhaseProperties.Selected | lib/jquery-tablesorter/rails-utils/ajax/handler.rb:159-161 | keeps exactly the filters at position `idx.to_i` that are not global |
| PhaseProperties.EntryFoldIsSelection | lib/jquery-tablesorter/rails-utils/ajax/handler.rb:158-169 | a filter entry is applied to exactly the selected filters, in registration order |
| PhaseProperties.GlobalEntryReachesNoGlobalFilter | lib/jquery-tablesorter/rails-utils/ajax/handler.rb:159-161 | the entry under `"999"` reaches only non-global filters at position 999 |
| PhaseProperties.EntryFoldIsReference | lib/jquery-tablesorter/rails-utils/ajax/handler.rb:159-169 | without `query` procs and having filters, one entry keeps the relation and collects its selected filters' contributions in registration order |
| PhaseProperties.EntriesFoldIsReference | lib/jquery-tablesorter/rails-utils/ajax/handler.rb:158-170 | without `query` procs and having filters, the per-column loop keeps the relation and collects the entries' parts in request order |
| PhaseProperties.PerColumnPhaseIsOneWhere | lib/jquery-tablesorter/rails-utils/ajax/handler.rb:151-173 | without `query` procs and having filters, the per-column phase adds one WHERE to the globally filtered relation: the reference fragments joined with ` AND `, their values bound in the same order |
| PhaseProperties.EntriesPhaseIsOneWhere | lib/jquery-tablesorter/rails-utils/ajax/handler.rb:154-172 | without `query` procs and having filters, the per-column loop run from empty lists and closed by `where(queries.join(' AND '), *values)` adds one WHERE of the reference fragments and values |
| PhaseProperties.FiltersAreTwoWheres | lib/jquery-tablesorter/rails-utils/ajax/handler.rb:126-173 | with a global text, `apply_filters` is the global contributions ORed in one WHERE followed by the per-column contributions ANDed in another |
| PhaseProperties.ApplyFilterKeepsExtension | lib/jquery-tablesorter/rails-utils/ajax/handler.rb:83-123 | with `?`-free names and no `query` proc, one `apply_filter` keeps the relation a balanced extension and binds one value per placeholder of its own fragments |
| PhaseProperties.CollectKeepsInvariant | lib/jquery-tablesorter/rails-utils/ajax/handler.rb:163-168 | one loop step keeps the relation a balanced extension and the collected fragments balanced |
| PhaseProperties.EntryFoldKeepsInvariant | lib/jquery-tablesorter/rails-utils/ajax/handler.rb:159-169 | the inner per-column loop keeps that invariant |
| PhaseProperties.EntriesFoldKeepsInvariant | lib/jquery-tablesorter/rails-utils/ajax/handler.rb:158-170 | the outer per-column loop keeps that invariant |
| PhaseProperties.GlobalPhaseBalanced | lib/jquery-tablesorter/rails-utils/ajax/handler.rb:126-148 | the global phase appends at most one call, a WHERE, and it binds one value per placeholder |
| PhaseProperties.ApplyFiltersBalanced | lib/jquery-tablesorter/rails-utils/ajax/handler.rb:151-173 | `apply_filters` only appends WHERE and HAVING calls, each binding one value per placeholder, and keeps the model class |
| QueryDataProperties.DirectionOfIntegerCode | lib/jquery-tablesorter/rails-utils/ajax/handler.rb:178 | a code sent as the decimal form of an integer sorts ascending exactly when the integer is even, negative codes included |
| QueryDataProperties.SortStepResolved | lib/jquery-tablesorter/rails-utils/ajax/handler.rb:179-189 | a sort entry naming a filter without `sorter_query` reorders by `table.column dir NULLS LAST` of that filter |
| QueryDataProperties.SortStepOnlyReorders | lib/jquery-tablesorter/rails-utils/ajax/handler.rb:179-190 | one sort entry appends at most one call, a `reorder` |
| QueryDataProperties.UnresolvedSortEntriesSkipped | lib/jquery-tablesorter/rails-utils/ajax/handler.rb:179-181 | sort entries at unregistered positions leave the relation unchanged |
| QueryDataProperties.ResolvedLastEntrySetsOrder | lib/jquery-tablesorter/rails-utils/ajax/handler.rb:176-194 | when the final sort entry names a registered filter, the ordering is that filter's `table.column dir NULLS LAST` |
| QueryDataProperties.SortFoldOnlyReorders | lib/jquery-tablesorter/rails-utils/ajax/handler.rb:176-194 | sorting only appends `reorder` calls |
| QueryDataProperties.LastSortEntryWins | lib/jquery-tablesorter/rails-utils/ajax/handler.rb:176-194 | the final ordering is `table.column dir NULLS LAST` of the last sort entry that names a registered filter, with its parity direction |
| QueryDataProperties.PaginationOnlyPages | lib/jquery-tablesorter/rails-utils/ajax/handler.rb:197-203 | pagination appends nothing, or a LIMIT followed by an OFFSET, and keeps the model class |
| QueryDataProperties.QueryDataLayering | lib/jquery-tablesorter/rails-utils/ajax/handler.rb:29-50 | the total is the distinct count of the base relation; the filtered count is taken on the filtered relation, before paging and sorting; the records are that relation with only LIMIT, OFFSET and ORDER BY added |
| QueryDataProperties.QueryDataPaging | lib/jquery-tablesorter/rails-utils/ajax/handler.rb:41-42 | the records are paged against the total row count: unless `size` is `all` or `size.to_i` reaches the total, the two calls right after the filtered relation are `limit(size)` and `offset(size * page)`; otherwise the filtered relation gains only `reorder` calls |
| QueryDataProperties.QueryDataOrder | lib/jquery-tablesorter/rails-utils/ajax/handler.rb:41-47 | the records are ordered by the last sort entry naming a registered filter, or keep the filtered relation's ordering when there is none; paging never changes it |

## Left out

- ActiveRecord and PostgreSQL execution are not modelled. `where`, `having`, `reorder`,
  `limit`, `offset` and `distinct` are symbolic calls. What `count` returns and whether
  the relation is blank are parameters. A model class is reduced to its table name and
  the set of its integer columns (`columns_hash`).
- `where` is taken to leave the relation unchanged only for a lone blank condition,
  as ActiveRecord 6.1 and later do.
- The user procs `values`, `query` and `sorter_query` are uninterpreted functions of
  `Env`. Their results are taken to be already converted by `Array(...)` and `to_s`.
- Filters whose options are of the wrong kind are excluded by the precondition
  `WellTyped`, as misconfigurations. A `values`, `query` or `sorter_query` option
  that is not a proc raises `NoMethodError` at `call`. A `class` option that is not a
  model raises only where `table_name` is reached (the column branch and sorting), but
  the model excludes it everywhere. A `column` or `having` option that is a model class
  or a proc is interpolated with `to_s` into SQL the database rejects; the model does
  not spell out that text. Strings, symbols, integers, booleans and other constants are
  accepted and interpolated as `to_s` writes them.
- The `rescue nil` at handler.rb:127 is modelled as "no filter hash, no global value".
- `filter.blank?` (handler.rb:84, 136, 160) is always false for a `Filter` object, so it
  is omitted.
- The balance and layering lemmas hold for registries without `query` procs, and the
  sorting lemmas for registries without `sorter_query` procs, because those procs can
  return arbitrary relations, fragments and values.
- PerColumnPhaseIsOneWhere: stated for registries without having filters. A having
  filter extends the relation with a HAVING clause, and the contributions after it are
  computed on the extended relation. `ApplyFiltersBalanced` covers that case for
  placeholder balance only.
- FiltersAreTwoWheres: carries the same restriction, for the same reason.
- EntryFoldIsReference: carries the same restriction, for the same reason.
- EntriesFoldIsReference: carries the same restriction, for the same reason.
- EntriesPhaseIsOneWhere: carries the same restriction, for the same reason.
- The symbolic relation has no plain `order` call and no default scope. A base relation
  ordered that way has no ordering in the model. So `QueryDataOrder`'s "keeps the
  filtered relation's ordering" covers only an ordering set by `reorder`.
- Ruby.ToI: the `0d`/`0D` radix prefix that `String#to_i` also accepts is not modelled.
- Ruby.Strip: strips NUL and ASCII whitespace at both ends, as Ruby 2.6 and later do.
- The controller concern (`action_controller.rb`), the require file (`ajax.rb`) and the
  version constant (`version.rb`) are not part of this model. They are parameter
  whitelisting, partial rendering and constants.
- `initialize` and `tablesorter_params` (handler.rb:9-11, 210-212) only store the
  parameters. `Handler` is a datatype holding them together with the registry
  (`ajax_filters`, handler.rb:206-208).

=== FILE: filter.dfy ===
/** `Filter` (filter.rb): one registered table column, its position and its options hash. */
module AjaxFilter {
  import opened Ruby

  /** The option keys a filter reads. */
  datatype OptionKey =
    | GlobalKey | NoopKey | DataTypeKey | ClassKey | ColumnKey
    | ValuesKey | QueryKey | SorterQueryKey | HavingKey

  type Options = map<OptionKey, Value>

  /** `options[key]`: `nil` for a key that was never given. */
  function Fetch(options: Options, key: OptionKey): Value {
    if key in options then options[key] else Nil
  }

  /** The position of a global filter registered without one; the request sends the
      global search text under the same number. */
  const GlobalPosition: int := 999

  datatype Filter = Filter(position: Value, options: Options) {

    /** `Filter.new(position, options)`. */
    static function New(position: Value, options: Options): (f: Filter)
      ensures f.options == options
      ensures Truthy(position) ==> f.position == position
      ensures !Truthy(position) ==>
                (f.position == Int(GlobalPosition) <==> Truthy(Fetch(options, GlobalKey)))
      ensures !Truthy(position) && !Truthy(Fetch(options, GlobalKey)) ==> f.position == Nil
    {
      var p := if Truthy(position) then position
               else if Truthy(Fetch(options, GlobalKey)) then Int(GlobalPosition)
               else Nil;
      Filter(p, options)
    }

    /** `noop?`: the filter never filters (it may still sort). */
    function IsNoop(): (r: bool)
      ensures r <==> Truthy(Fetch(options, NoopKey))
    {
      Truthy(Fetch(options, NoopKey))
    }

    /** `global?`: the option itself when truthy, `false` otherwise. */
    function IsGlobal(): (r: Value)
      ensures Truthy(r) <==> Truthy(Fetch(options, GlobalKey))
      ensures Truthy(Fetch(options, GlobalKey)) ==> r == Fetch(options, GlobalKey)
      ensures !Truthy(Fetch(options, GlobalKey)) ==> r == Bool(false)
    {
      var g := Fetch(options, GlobalKey);
      if Truthy(g) then g else Bool(false)
    }

    function DataType(): (r: Value)
      ensures r == Nil || r == Fetch(options, DataTypeKey)
      ensures r == Nil <==> Blank(Fetch(options, DataTypeKey))
    {
      Presence(Fetch(options, DataTypeKey))
    }

    /** `klass`, the model class owning the column (`options[:class]`). */
    function ModelClass(): (r: Value)
      ensures r == Nil || r == Fetch(options, ClassKey)
      ensures r == Nil <==> Blank(Fetch(options, ClassKey))
    {
      Presence(Fetch(options, ClassKey))
    }

    function Column(): (r: Value)
      ensures r == Nil || r == Fetch(options, ColumnKey)
      ensures r == Nil <==> Blank(Fetch(options, ColumnKey))
    {
      Presence(Fetch(options, ColumnKey))
    }

    /** The proc mapping a filter value to the list of values to match. */
    function Values(): (r: Value)
      ensures r == Nil || r == Fetch(options, ValuesKey)
      ensures r == Nil <==> Blank(Fetch(options, ValuesKey))
    {
      Presence(Fetch(options, ValuesKey))
    }

    /** The proc building a custom filter condition. */
    function QueryProc(): (r: Value)
      ensures r == Nil || r == Fetch(options, QueryKey)
      ensures r == Nil <==> Blank(Fetch(options, QueryKey))
    {
      Presence(Fetch(options, QueryKey))
    }

    /** The proc ordering the relation for this column. */
    function SorterQuery(): (r: Value)
      ensures r == Nil || r == Fetch(options, SorterQueryKey)
      ensures r == Nil <==> Blank(Fetch(options, SorterQueryKey))
    {
      Presence(Fetch(options, SorterQueryKey))
    }

    /** The SQL expression a having filter matches against. */
    function Having(): (r: Value)
      ensures r == Nil || r == Fetch(options, HavingKey)
      ensures r == Nil <==> Blank(Fetch(options, HavingKey))
    {
      Presence(Fetch(options, HavingKey))
    }

    /** The options hold objects of the kinds the handler uses them as: a model class
        that answers `table_name`, procs that answer `call`, and a column and having
        expression whose `to_s` the model spells out. */
    predicate WellTyped() {
      && (ModelClass() == Nil || ModelClass().Model?)
      && Printable(Column())
      && (Values() == Nil || Values().Proc?)
      && (QueryProc() == Nil || QueryProc().Proc?)
      && (SorterQuery() == Nil || SorterQuery().Proc?)
      && Printable(Having())
    }
  }
}

=== FILE: filter_properties.dfy ===
/** Properties of `apply_filter`, one filter and one value at a time: when it does
    nothing, what a column filter and a having filter produce, that placeholders and
    bound values line up, and that the filter text reaches the SQL only as a bound value. */
module ApplyFilterProperties {
  import opened Ruby
  import opened Relation
  import opened AjaxFilter
  import opened AjaxHandler

  /** Neither the table nor the column nor the having expression of `f` contains a `?`:
      these names come from the registry and are written into the SQL text. */
  predicate SafeNames(f: Filter, fallback: Klass)
    requires f.WellTyped()
  {
    && Placeholders(FilterKlass(f, fallback).tableName) == 0
    && Placeholders(ToS(f.Column())) == 0
    && Placeholders(ToS(f.Having())) == 0
  }

  /** The filter is active for this value: the relation has rows, the value is not blank
      and the filter is not a no-op. */
  predicate Active(env: Env, query: Query, f: Filter, value: string) {
    !env.relationBlank(query) && !IsBlankString(value) && !f.IsNoop()
  }

  lemma ColumnTargetPlaceholders(table: string, column: string, truncate: bool)
    ensures Placeholders(ColumnTarget(table, column, truncate)) == Placeholders(table) + Placeholders(column)
  {
    NoPlaceholders(".");
    PlaceholdersAppend(table, ".");
    PlaceholdersAppend(table + ".", column);
    if truncate {
      var qualified := table + "." + column;
      NoPlaceholders("date_trunc('second', ");
      NoPlaceholders(")");
      PlaceholdersAppend("date_trunc('second', ", qualified);
      PlaceholdersAppend("date_trunc('second', " + qualified, ")");
    }
  }

  lemma LikePredicatePlaceholders(target: string)
    ensures Placeholders(LikePredicate(target)) == Placeholders(target) + 1
  {
    var head := "LOWER(";
    var mid := "::varchar) LIKE LOWER(";
    NoPlaceholders(head);
    NoPlaceholders(mid);
    NoPlaceholders(")");
    assert Placeholders(Placeholder) == 1;
    PlaceholdersAppend(head, target);
    PlaceholdersAppend(head + target, mid);
    PlaceholdersAppend(head + target + mid, Placeholder);
    PlaceholdersAppend(head + target + mid + Placeholder, ")");
  }

  /** A `?`-free target gives the predicates of a value list exactly one placeholder per LIKE. */
  lemma {:induction false} ValuePredicatesPlaceholders(klass: Klass, column: string, target: string, vals: seq<string>)
    requires Placeholders(target) == 0
    ensures TotalPlaceholders(ValuePredicates(klass, column, target, vals)) == LikeCount(klass, column, vals)
    decreases |vals|
  {
    if |vals| > 0 {
      var init := vals[..|vals| - 1];
      var last := PredicateFor(klass, column, target, vals[|vals| - 1]);
      ValuePredicatesPlaceholders(klass, column, target, init);
      TotalPlaceholdersAppend(ValuePredicates(klass, column, target, init), [last]);
      LikePredicatePlaceholders(target);
      assert TotalPlaceholders([last]) == Placeholders(last);
      NoPlaceholders(NeverTrue);
    }
  }

  /** A column filter leaves the relation alone and gives exactly one bound value per
      `?` in its fragments. */
  lemma ColumnFilterBalanced(env: Env, query: Query, f: Filter, value: string)
    requires f.WellTyped() && !Blank(f.Column())
    requires SafeNames(f, query.klass)
    ensures ApplyFilter(env, query, f, value).query == query
    ensures TotalPlaceholders(ApplyFilter(env, query, f, value).fragments)
            == |ApplyFilter(env, query, f, value).binds|
  {
    var r := ApplyFilter(env, query, f, value);
    if Active(env, query, f, value) {
      var klass := FilterKlass(f, query.klass);
      var column := ToS(f.Column());
      var target := ColumnTarget(klass.tableName, column, f.DataType() == Const("DateTime"));
      var vals := Items(FilterNeedle(env, f, value));
      var preds := ValuePredicates(klass, column, target, vals);
      ColumnTargetPlaceholders(klass.tableName, column, f.DataType() == Const("DateTime"));
      ValuePredicatesPlaceholders(klass, column, target, vals);
      assert r.binds == ValueBinds(klass, column, vals);
      if |preds| > 0 {
        var group := "(" + Join(preds, " OR ") + ")";
        JoinPlaceholders(preds, " OR ");
        NoPlaceholders(" OR ");
        NoPlaceholders("(");
        NoPlaceholders(")");
        PlaceholdersAppend("(", Join(preds, " OR "));
        PlaceholdersAppend("(" + Join(preds, " OR "), ")");
        assert r.fragments == [group];
        assert TotalPlaceholders(r.fragments) == Placeholders(group);
      }
    }
  }

  /** The number of values of a column filter that pass the integer guard alike. */
  predicate SameGuards(klass: Klass, column: string, a: seq<string>, b: seq<string>) {
    |a| == |b| && forall i :: 0 <= i < |a| ==> IntegerGuard(klass, column, a[i]) == IntegerGuard(klass, column, b[i])
  }

  /** The filter text is never written into the SQL: two texts whose values meet the
      integer guard alike give a column filter the very same fragments. */
  lemma ColumnFragmentsIgnoreText(env: Env, query: Query, f: Filter, v1: string, v2: string)
    requires f.WellTyped() && !Blank(f.Column())
    requires Active(env, query, f, v1) && Active(env, query, f, v2)
    requires SameGuards(FilterKlass(f, query.klass), ToS(f.Column()),
                        Items(FilterNeedle(env, f, v1)), Items(FilterNeedle(env, f, v2)))
    ensures ApplyFilter(env, query, f, v1).fragments == ApplyFilter(env, query, f, v2).fragments
  {
    var klass := FilterKlass(f, query.klass);
    var column := ToS(f.Column());
    var target := ColumnTarget(klass.tableName, column, f.DataType() == Const("DateTime"));
    var p1 := ValuePredicates(klass, column, target, Items(FilterNeedle(env, f, v1)));
    var p2 := ValuePredicates(klass, column, target, Items(FilterNeedle(env, f, v2)));
    assert p1 == p2;
  }

  /** The text itself travels as bound values: the k-th value that passes the guard is
      bound, wrapped in `%`, at the k-th placeholder of a column filter. */
  lemma ColumnFilterBindsText(env: Env, query: Query, f: Filter, value: string, i: nat)
    requires f.WellTyped() && !Blank(f.Column()) && Active(env, query, f, value)
    requires i < |Items(FilterNeedle(env, f, value))|
    requires !IntegerGuard(FilterKlass(f, query.klass), ToS(f.Column()), Items(FilterNeedle(env, f, value))[i])
    ensures var vals := Items(FilterNeedle(env, f, value));
            var k := LikeCount(FilterKlass(f, query.klass), ToS(f.Column()), vals[..i]);
            k < |ApplyFilter(env, query, f, value).binds|
            && ApplyFilter(env, query, f, value).binds[k] == Str("%" + vals[i] + "%")
  {
    ValueBindsAlign(FilterKlass(f, query.klass), ToS(f.Column()), Items(FilterNeedle(env, f, value)), i);
  }

  /** Without a `values` proc, a plain column filter compares its one value: one
      parenthesised LIKE bound to `%value%`, or `0 = 1` for an integer column and a
      value that is not all digits. */
  lemma PlainColumnFilter(env: Env, query: Query, f: Filter, value: string)
    requires f.WellTyped() && !Blank(f.Column()) && Blank(f.Values())
    requires Active(env, query, f, value)
    ensures var klass := FilterKlass(f, query.klass);
            var column := ToS(f.Column());
            var target := ColumnTarget(klass.tableName, column, f.DataType() == Const("DateTime"));
            var r := ApplyFilter(env, query, f, value);
            && r.query == query
            && (IntegerGuard(klass, column, value) ==> r.fragments == ["(" + NeverTrue + ")"] && r.binds == [])
            && (!IntegerGuard(klass, column, value) ==>
                  r.fragments == ["(" + LikePredicate(target) + ")"] && r.binds == [Str("%" + value + "%")])
  {
    var klass := FilterKlass(f, query.klass);
    var column := ToS(f.Column());
    var target := ColumnTarget(klass.tableName, column, f.DataType() == Const("DateTime"));
    var preds := ValuePredicates(klass, column, target, [value]);
    assert [value][..0] == [];
    assert Join(preds, " OR ") == preds[0];
  }

  /** A column filter, with or without a `values` proc, turns its values into one
      parenthesised ` OR ` group of the per-value predicates, bound to the values that
      pass the integer guard; no values give no fragment. */
  lemma ColumnFilterOrGroup(env: Env, query: Query, f: Filter, value: string)
    requires f.WellTyped() && !Blank(f.Column()) && Active(env, query, f, value)
    ensures var klass := FilterKlass(f, query.klass);
            var column := ToS(f.Column());
            var target := ColumnTarget(klass.tableName, column, f.DataType() == Const("DateTime"));
            var items := Items(FilterNeedle(env, f, value));
            var r := ApplyFilter(env, query, f, value);
            && r.query == query
            && (|items| > 0 ==> r.fragments == ["(" + Join(ValuePredicates(klass, column, target, items), " OR ") + ")"])
            && (|items| == 0 ==> r.fragments == [])
            && r.binds == ValueBinds(klass, column, items)
  {
    var klass := FilterKlass(f, query.klass);
    var column := ToS(f.Column());
    var target := ColumnTarget(klass.tableName, column, f.DataType() == Const("DateTime"));
    var items := Items(FilterNeedle(env, f, value));
    assert |ValuePredicates(klass, column, target, items)| == |items|;
  }

  /** On a column that is not an integer column every value passes the guard: one
      `%value%` bound per value, in order. */
  lemma {:induction false} UnguardedBinds(klass: Klass, column: string, vals: seq<string>)
    requires column !in klass.integerColumns
    ensures |ValueBinds(klass, column, vals)| == |vals|
    ensures forall i :: 0 <= i < |vals| ==> ValueBinds(klass, column, vals)[i] == Str("%" + vals[i] + "%")
    decreases |vals|
  {
    if |vals| > 0 {
      var init := vals[..|vals| - 1];
      UnguardedBinds(klass, column, init);
      assert forall i :: 0 <= i < |init| ==> init[i] == vals[i];
    }
  }

  /** Mapping a value to several values through a `values` proc gives an OR of LIKEs,
      one per mapped value, each bound to its own `%value%`, and no `IN` list. */
  lemma MappedValuesOrLikes(env: Env, query: Query, f: Filter, value: string)
    requires f.WellTyped() && !Blank(f.Column()) && Active(env, query, f, value)
    requires ToS(f.Column()) !in FilterKlass(f, query.klass).integerColumns
    requires |Items(FilterNeedle(env, f, value))| > 0
    ensures var klass := FilterKlass(f, query.klass);
            var target := ColumnTarget(klass.tableName, ToS(f.Column()), f.DataType() == Const("DateTime"));
            var items := Items(FilterNeedle(env, f, value));
            var r := ApplyFilter(env, query, f, value);
            && r.fragments == ["(" + Join(seq(|items|, _ => LikePredicate(target)), " OR ") + ")"]
            && |r.binds| == |items|
            && forall i :: 0 <= i < |items| ==> r.binds[i] == Str("%" + items[i] + "%")
  {
    var klass := FilterKlass(f, query.klass);
    var column := ToS(f.Column());
    var target := ColumnTarget(klass.tableName, column, f.DataType() == Const("DateTime"));
    var items := Items(FilterNeedle(env, f, value));
    ColumnFilterOrGroup(env, query, f, value);
    assert ValuePredicates(klass, column, target, items) == seq(|items|, _ => LikePredicate(target));
    UnguardedBinds(klass, column, items);
  }

  /** A having filter (no column, no `query` proc) adds one HAVING clause bound to the
      first value and contributes no WHERE fragment. */
  lemma HavingFilterAddsHaving(env: Env, query: Query, f: Filter, value: string)
    requires f.WellTyped() && Blank(f.Column()) && Blank(f.QueryProc()) && !Blank(f.Having())
    requires Active(env, query, f, value)
    ensures var r := ApplyFilter(env, query, f, value);
            && r.fragments == []
            && r.query.klass == query.klass
            && r.query.ops == query.ops + [HavingOp(HavingFragment(ToS(f.Having())),
                                                   Str("%" + FirstText(Items(FilterNeedle(env, f, value))) + "%"))]
  {
  }

  lemma HavingFragmentPlaceholders(having: string)
    ensures Placeholders(HavingFragment(having)) == Placeholders(having) + 1
  {
    var head := "LOWER((";
    var mid := ")::varchar) LIKE ";
    NoPlaceholders(head);
    NoPlaceholders(mid);
    assert Placeholders(Placeholder) == 1;
    PlaceholdersAppend(head, having);
    PlaceholdersAppend(head + having, mid);
    PlaceholdersAppend(head + having + mid, Placeholder);
  }
}

=== FILE: handler.dfy ===
/** `Handler` (handler.rb): compiles the tablesorter request parameters into calls on a
    relation, given the registry of filters built by `create_filter_info`. */
module AjaxHandler {
  import opened Ruby
  import opened Relation
  import opened AjaxFilter

  /** A request parameter hash, in the insertion order Ruby iterates it in. */
  type Pairs = seq<(string, string)>

  /** The whitelisted request: `page`, `size`, `sort` and `filter`, each possibly absent. */
  datatype Params = Params(page: Option<string>, size: Option<string>, sort: Option<Pairs>, filter: Option<Pairs>)

  /** `hash[key]` on a parameter hash. */
  function Lookup(pairs: Pairs, key: string): (r: Option<string>)
    ensures r.None? <==> forall i :: 0 <= i < |pairs| ==> pairs[i].0 != key
    ensures r.Some? ==> exists i :: 0 <= i < |pairs| && pairs[i] == (key, r.value)
    decreases |pairs|
  {
    if |pairs| == 0 then None
    else if pairs[0].0 == key then Some(pairs[0].1)
    else Lookup(pairs[1..], key)
  }

  datatype Direction = Asc | Desc

  function DirectionName(d: Direction): string {
    match d
    case Asc => "asc"
    case Desc => "desc"
  }

  /** The filter value after the optional `values` proc: the text as sent, or the
      list the proc mapped it to. */
  datatype Needle = Text(s: string) | Mapped(items: seq<string>)

  /** `Array(value)`. */
  function Items(n: Needle): seq<string> {
    match n
    case Text(s) => [s]
    case Mapped(items) => items
  }

  /** `[query, queries, values]` as `apply_filter` returns it: the (possibly extended)
      relation, the WHERE fragments it contributes and the values bound to them. */
  datatype FilterOutput = FilterOutput(query: Query, fragments: seq<string>, binds: seq<Value>)

  /** Everything the handler calls but cannot see: `relation.blank?` (which loads the
      records), `count`, and the user-supplied `values`, `query` and `sorter_query`
      procs, each identified by the id of its `Proc` option. */
  datatype Env = Env(
    relationBlank: Query -> bool,
    count: (Query, Value) -> Count,
    mapValues: (nat, string) -> seq<string>,
    customQuery: (nat, Query, Needle) -> FilterOutput,
    customSorter: (nat, Query, Direction) -> Query)

  /** A handler: the request parameters and the filters registered so far. */
  datatype Handler = Handler(params: Params, filters: seq<Filter>)

  predicate WellTypedRegistry(filters: seq<Filter>) {
    forall i :: 0 <= i < |filters| ==> filters[i].WellTyped()
  }

  /** No filter reaches a `query` proc: those that have one also have a column. */
  predicate NoCustomQuery(filters: seq<Filter>) {
    forall i :: 0 <= i < |filters| ==> !Blank(filters[i].Column()) || Blank(filters[i].QueryProc())
  }

  /** No registered filter carries a `sorter_query` proc. */
  predicate NoCustomSorter(filters: seq<Filter>) {
    forall i :: 0 <= i < |filters| ==> Blank(filters[i].SorterQuery())
  }

  /** `create_filter_info`: registers a new filter at the end and returns it. */
  function CreateFilterInfo(h: Handler, position: Value, options: Options): (r: (Handler, Filter))
    ensures r.0.params == h.params
    ensures |r.0.filters| == |h.filters| + 1
    ensures r.0.filters[..|h.filters|] == h.filters
    ensures r.0.filters[|h.filters|] == r.1
    ensures r.1 == Filter.New(position, options)
    ensures forall p :: Find(h.filters, p).Some? ==> Find(r.0.filters, p) == Find(h.filters, p)
    ensures Find(h.filters, r.1.position).None? ==> Find(r.0.filters, r.1.position) == Some(r.1)
  {
    var f := Filter.New(position, options);
    var filters := h.filters + [f];
    assert filters[..|h.filters|] == h.filters;
    FindIndexExtend(h.filters, f);
    (Handler(h.params, filters), f)
  }

  /** The index of the first filter registered at `position`. */
  function FindIndex(filters: seq<Filter>, position: Value): (r: Option<nat>)
    ensures r.None? <==> forall i :: 0 <= i < |filters| ==> filters[i].position != position
    ensures r.Some? ==> r.value < |filters| && filters[r.value].position == position
    ensures r.Some? ==> forall j :: 0 <= j < r.value ==> filters[j].position != position
    decreases |filters|
  {
    if |filters| == 0 then None
    else if filters[0].position == position then Some(0)
    else match FindIndex(filters[1..], position)
      case None => None
      case Some(i) => Some(i + 1)
  }

  /** Looking a position up after one more filter was registered: the earlier first
      match if there was one, else the new filter if it sits there. */
  lemma FindIndexSnoc(filters: seq<Filter>, f: Filter, position: Value)
    ensures FindIndex(filters + [f], position)
            == if FindIndex(filters, position).Some? then FindIndex(filters, position)
               else if f.position == position then Some(|filters|)
               else None
  {
    if FindIndex(filters, position).Some? {
      FindIndexSnocKept(filters, f, position);
    } else {
      FindIndexSnocNew(filters, f, position);
    }
  }

  lemma FindIndexSnocKept(filters: seq<Filter>, f: Filter, position: Value)
    requires FindIndex(filters, position).Some?
    ensures FindIndex(filters + [f], position) == FindIndex(filters, position)
  {
    var all := filters + [f];
    var k := FindIndex(filters, position).value;
    assert all[k] == filters[k];
    var r := FindIndex(all, position);
    assert r.Some?;
  }

  lemma FindIndexSnocNew(filters: seq<Filter>, f: Filter, position: Value)
    requires FindIndex(filters, position).None?
    ensures FindIndex(filters + [f], position) == if f.position == position then Some(|filters|) else None
  {
    var all := filters + [f];
    assert forall i :: 0 <= i < |filters| ==> all[i] == filters[i];
    assert all[|filters|] == f;
  }

  /** Registering one more filter leaves every earlier lookup as it was, and a position
      nobody held before now finds the new filter. */
  lemma FindIndexExtend(filters: seq<Filter>, f: Filter)
    ensures forall p :: FindIndex(filters, p).Some? ==> FindIndex(filters + [f], p) == FindIndex(filters, p)
    ensures FindIndex(filters, f.position).None? ==> FindIndex(filters + [f], f.position) == Some(|filters|)
  {
    forall p | FindIndex(filters, p).Some?
      ensures FindIndex(filters + [f], p) == FindIndex(filters, p)
    {
      FindIndexSnoc(filters, f, p);
    }
    FindIndexSnoc(filters, f, f.position);
  }

  /** `ajax_filters.find { |f| f.position == position }`. */
  function Find(filters: seq<Filter>, position: Value): (r: Option<Filter>)
    ensures r.None? <==> forall i :: 0 <= i < |filters| ==> filters[i].position != position
    ensures r.Some? ==> r.value.position == position
    ensures r.Some? ==> exists i :: 0 <= i < |filters| && filters[i] == r.value
    ensures r.Some? ==> FindIndex(filters, position).Some? && r.value == filters[FindIndex(filters, position).value]
  {
    match FindIndex(filters, position)
    case None => None
    case Some(i) => Some(filters[i])
  }

  /** The column expression a column filter compares: `table.column`, truncated to whole
      seconds for a `DateTime` column. */
  function ColumnTarget(tableName: string, column: string, truncate: bool): string {
    var qualified := tableName + "." + column;
    if truncate then "date_trunc('second', " + qualified + ")" else qualified
  }

  /** The placeholder a bound value takes in an SQL fragment. */
  const Placeholder: string := "?"

  /** The predicate matching one value: case-insensitive substring match, the value bound. */
  function LikePredicate(target: string): string {
    "LOWER(" + target + "::varchar) LIKE LOWER(" + Placeholder + ")"
  }

  /** The predicate standing in for a value that cannot match an integer column. */
  const NeverTrue: string := "0 = 1"

  /** An integer column is compared only with values that are all digits after `strip`. */
  predicate IntegerGuard(klass: Klass, column: string, val: string) {
    column in klass.integerColumns && !MatchesDigitsPattern(Strip(val))
  }

  /** How many of `vals` are matched with LIKE, that is, bound. */
  function LikeCount(klass: Klass, column: string, vals: seq<string>): (n: nat)
    ensures n <= |vals|
    decreases |vals|
  {
    if |vals| == 0 then 0
    else LikeCount(klass, column, vals[..|vals| - 1])
         + (if IntegerGuard(klass, column, vals[|vals| - 1]) then 0 else 1)
  }

  /** The predicate for one value: LIKE against the bound value, or the never-true
      predicate for a value the integer guard rejects. */
  function PredicateFor(klass: Klass, column: string, target: string, val: string): string {
    if IntegerGuard(klass, column, val) then NeverTrue else LikePredicate(target)
  }

  /** One predicate per value, in order. */
  function ValuePredicates(klass: Klass, column: string, target: string, vals: seq<string>): (r: seq<string>)
    ensures |r| == |vals|
    ensures forall i :: 0 <= i < |vals| ==> r[i] == PredicateFor(klass, column, target, vals[i])
    decreases |vals|
  {
    if |vals| == 0 then []
    else
      var init := vals[..|vals| - 1];
      var r := ValuePredicates(klass, column, target, init) + [PredicateFor(klass, column, target, vals[|vals| - 1])];
      assert forall i :: 0 <= i < |init| ==> init[i] == vals[i];
      r
  }

  /** The values bound to the LIKE predicates, `%value%` each, in order. */
  function ValueBinds(klass: Klass, column: string, vals: seq<string>): (r: seq<Value>)
    ensures |r| == LikeCount(klass, column, vals)
    decreases |vals|
  {
    if |vals| == 0 then []
    else
      var init := vals[..|vals| - 1];
      var v := vals[|vals| - 1];
      ValueBinds(klass, column, init)
        + (if IntegerGuard(klass, column, v) then [] else [Str("%" + v + "%")])
  }

  /** The j-th bound value belongs to the j-th LIKE predicate: a value that passes the
      guard is bound at the number of LIKEs before it. */
  lemma {:induction false} ValueBindsAlign(klass: Klass, column: string, vals: seq<string>, i: nat)
    requires i < |vals| && !IntegerGuard(klass, column, vals[i])
    ensures LikeCount(klass, column, vals[..i]) < |ValueBinds(klass, column, vals)|
    ensures ValueBinds(klass, column, vals)[LikeCount(klass, column, vals[..i])] == Str("%" + vals[i] + "%")
    decreases |vals|
  {
    var init := vals[..|vals| - 1];
    if i < |vals| - 1 {
      assert init[..i] == vals[..i];
      assert init[i] == vals[i];
      ValueBindsAlign(klass, column, init, i);
      LikeCountMonotone(klass, column, init, i);
    } else {
      assert vals[..i] == init;
    }
  }

  lemma {:induction false} LikeCountMonotone(klass: Klass, column: string, vals: seq<string>, i: nat)
    requires i <= |vals|
    ensures LikeCount(klass, column, vals[..i]) <= LikeCount(klass, column, vals)
    decreases |vals|
  {
    if i < |vals| {
      assert vals[..|vals| - 1][..i] == vals[..i];
      LikeCountMonotone(klass, column, vals[..|vals| - 1], i);
    } else {
      assert vals[..i] == vals;
    }
  }

  /** The WHERE fragments of a column filter: the per-value predicates as one
      parenthesised OR group, or nothing when there are no values. */
  function ColumnFragments(preds: seq<string>): (r: seq<string>)
    ensures |r| == 0 <==> |preds| == 0
    ensures |r| <= 1
    ensures |r| == 1 ==> 2 <= |r[0]| && r[0][0] == '(' && r[0][|r[0]| - 1] == ')'
                         && r[0][1..|r[0]| - 1] == Join(preds, " OR ")
  {
    if |preds| > 0 then ["(" + Join(preds, " OR ") + ")"] else []
  }

  /** The SQL of a having filter. */
  function HavingFragment(having: string): string {
    "LOWER((" + having + ")::varchar) LIKE " + Placeholder
  }

  /** `Array(value).first` as interpolated: the empty string for an empty list. */
  function FirstText(items: seq<string>): string {
    if |items| == 0 then "" else items[0]
  }

  /** The model class a filter queries: its `class` option, else the relation's. */
  function FilterKlass(f: Filter, fallback: Klass): Klass
    requires f.WellTyped()
  {
    if Truthy(f.ModelClass()) then f.ModelClass().klass else fallback
  }

  /** The filter value as passed to the filter's branch: mapped by `values` when given. */
  function FilterNeedle(env: Env, f: Filter, value: string): Needle
    requires f.WellTyped()
  {
    if !Blank(f.Values()) then Mapped(env.mapValues(f.Values().id, value)) else Text(value)
  }

  /** `apply_filter`: the condition one filter contributes for one value. A column
      filter yields WHERE fragments; else a `query` proc decides; else a having filter
      extends the relation with a HAVING clause and yields no fragment. */
  function ApplyFilter(env: Env, query: Query, f: Filter, value: string): (r: FilterOutput)
    requires f.WellTyped()
    ensures env.relationBlank(query) || IsBlankString(value) || f.IsNoop() ==>
              r == FilterOutput(query, [], [])
    ensures !Blank(f.Column()) ==> r.query == query && |r.fragments| <= 1
    ensures !env.relationBlank(query) && !IsBlankString(value) && !f.IsNoop()
            && Blank(f.Column()) && !Blank(f.QueryProc()) ==>
              r == env.customQuery(f.QueryProc().id, query, FilterNeedle(env, f, value))
    ensures Blank(f.Column()) && Blank(f.QueryProc()) ==> |r.fragments| == 0
    ensures Blank(f.Column()) && Blank(f.QueryProc()) && Blank(f.Having()) ==> r.query == query
  {
    if env.relationBlank(query) || IsBlankString(value) then FilterOutput(query, [], [])
    else if f.IsNoop() then FilterOutput(query, [], [])
    else
      var klass := FilterKlass(f, query.klass);
      var needle := FilterNeedle(env, f, value);
      if !Blank(f.Column()) then
        var column := ToS(f.Column());
        var target := ColumnTarget(klass.tableName, column, f.DataType() == Const("DateTime"));
        var preds := ValuePredicates(klass, column, target, Items(needle));
        FilterOutput(query, ColumnFragments(preds), ValueBinds(klass, column, Items(needle)))
      else if !Blank(f.QueryProc()) then
        env.customQuery(f.QueryProc().id, query, needle)
      else if !Blank(f.Having()) then
        var bind := Str("%" + FirstText(Items(needle)) + "%");
        FilterOutput(query.Having(HavingFragment(ToS(f.Having())), bind), [], [])
      else
        FilterOutput(query, [], [])
  }

  /** One step of either phase: the relation always moves on, the fragments and values
      are collected only when the filter contributed a fragment. */
  function Collect(env: Env, acc: FilterOutput, f: Filter, value: string): (r: FilterOutput)
    requires f.WellTyped()
    ensures r.query == ApplyFilter(env, acc.query, f, value).query
    ensures acc.fragments <= r.fragments && acc.binds <= r.binds
    ensures |ApplyFilter(env, acc.query, f, value).fragments| == 0 ==>
              r.fragments == acc.fragments && r.binds == acc.binds
    ensures |ApplyFilter(env, acc.query, f, value).fragments| > 0 ==>
              r.fragments == acc.fragments + ApplyFilter(env, acc.query, f, value).fragments
              && r.binds == acc.binds + ApplyFilter(env, acc.query, f, value).binds
  {
    var out := ApplyFilter(env, acc.query, f, value);
    if |out.fragments| == 0 then FilterOutput(out.query, acc.fragments, acc.binds)
    else FilterOutput(out.query, acc.fragments + out.fragments, acc.binds + out.binds)
  }

  /** The global search text: `filter["999"]`, absent when there is no filter hash. */
  function GlobalValue(params: Params): Option<string> {
    match params.filter
    case None => None
    case Some(pairs) => Lookup(pairs, IntToString(GlobalPosition))
  }

  /** The loop of `apply_global_filters` over the registry in registration order,
      skipping having filters. */
  function GlobalFold(env: Env, filters: seq<Filter>, start: FilterOutput, value: string): (r: FilterOutput)
    requires WellTypedRegistry(filters)
    ensures start.fragments <= r.fragments && start.binds <= r.binds
    ensures NoCustomQuery(filters) ==> r.query == start.query
    decreases |filters|
  {
    if |filters| == 0 then start
    else
      var acc := GlobalFold(env, filters[..|filters| - 1], start, value);
      var f := filters[|filters| - 1];
      if !Blank(f.Having()) then acc else Collect(env, acc, f, value)
  }

  /** `apply_global_filters`: the global search text, when there is one, ORed over
      every non-having filter as a single WHERE. */
  function ApplyGlobalFilters(env: Env, filters: seq<Filter>, query: Query, params: Params): (r: Query)
    requires WellTypedRegistry(filters)
    ensures NoCustomQuery(filters) ==> r.klass == query.klass && r.Order() == query.Order()
    ensures GlobalValue(params).None? ==> r == query
    ensures GlobalValue(params).Some? && IsBlankString(GlobalValue(params).value) ==> r == query
  {
    match GlobalValue(params)
    case None => query
    case Some(value) =>
      if IsBlankString(value) then query
      else
        var acc := GlobalFold(env, filters, FilterOutput(query, [], []), value);
        acc.query.Where(Join(acc.fragments, " OR "), acc.binds)
  }

  /** Whether the per-column phase applies `f` to the filter entry keyed `idx`. */
  predicate SelectedFor(f: Filter, idx: string) {
    f.position == Int(ToI(idx)) && !Truthy(f.IsGlobal())
  }

  /** The inner loop of `apply_filters` for one entry `(idx, value)`: the filters at
      position `idx.to_i`, in registration order, skipping global ones. */
  function EntryFold(env: Env, filters: seq<Filter>, start: FilterOutput, idx: string, value: string): (r: FilterOutput)
    requires WellTypedRegistry(filters)
    ensures start.fragments <= r.fragments && start.binds <= r.binds
    ensures NoCustomQuery(filters) ==> r.query.klass == start.query.klass && r.query.Order() == start.query.Order()
    decreases |filters|
  {
    if |filters| == 0 then start
    else
      var acc := EntryFold(env, filters[..|filters| - 1], start, idx, value);
      var f := filters[|filters| - 1];
      if SelectedFor(f, idx) then Collect(env, acc, f, value) else acc
  }

  /** The outer loop of `apply_filters` over the filter entries in request order. */
  function EntriesFold(env: Env, filters: seq<Filter>, start: FilterOutput, entries: Pairs): (r: FilterOutput)
    requires WellTypedRegistry(filters)
    ensures start.fragments <= r.fragments && start.binds <= r.binds
    ensures NoCustomQuery(filters) ==> r.query.klass == start.query.klass && r.query.Order() == start.query.Order()
    decreases |entries|
  {
    if |entries| == 0 then start
    else
      var acc := EntriesFold(env, filters, start, entries[..|entries| - 1]);
      EntryFold(env, filters, acc, entries[|entries| - 1].0, entries[|entries| - 1].1)
  }

  function FilterEntries(params: Params): Pairs {
    match params.filter
    case None => []
    case Some(pairs) => pairs
  }

  /** `apply_filters`: the global phase, then one WHERE ANDing every per-column fragment. */
  function ApplyFilters(env: Env, filters: seq<Filter>, query: Query, params: Params): (r: Query)
    requires WellTypedRegistry(filters)
    ensures params.filter.None? ==> r == query
    ensures NoCustomQuery(filters) ==> r.klass == query.klass && r.Order() == query.Order()
  {
    var afterGlobal := ApplyGlobalFilters(env, filters, query, params);
    var acc := EntriesFold(env, filters, FilterOutput(afterGlobal, [], []), FilterEntries(params));
    acc.query.Where(Join(acc.fragments, " AND "), acc.binds)
  }

  /** Sort direction from the parity of the code: even ascending, odd descending
      (Ruby's `%` by 2 is never negative, as Dafny's is not). */
  function DirectionOf(code: string): (d: Direction)
    ensures d == Asc <==> ToI(code) % 2 == 0
    ensures d == Desc <==> ToI(code) % 2 == 1
  {
    if ToI(code) % 2 == 0 then Asc else Desc
  }

  /** The default ordering clause for a filter. */
  function SortClause(klass: Klass, f: Filter, d: Direction): string
    requires f.WellTyped()
  {
    klass.tableName + "." + ToS(f.Column()) + " " + DirectionName(d) + " NULLS LAST"
  }

  /** One entry of `apply_sorting`. */
  function SortStep(env: Env, filters: seq<Filter>, query: Query, idx: string, order: string): (r: Query)
    requires WellTypedRegistry(filters)
    ensures Find(filters, Int(ToI(idx))).None? ==> r == query
    ensures NoCustomSorter(filters) && Find(filters, Int(ToI(idx))).Some? ==>
              var f := Find(filters, Int(ToI(idx))).value;
              r.klass == query.klass
              && r.ops == query.ops + [ReorderOp(SortClause(FilterKlass(f, query.klass), f, DirectionOf(order)))]
  {
    var d := DirectionOf(order);
    match Find(filters, Int(ToI(idx)))
    case None => query
    case Some(f) =>
      if !Blank(f.SorterQuery()) then env.customSorter(f.SorterQuery().id, query, d)
      else query.Reorder(SortClause(FilterKlass(f, query.klass), f, d))
  }

  function SortFold(env: Env, filters: seq<Filter>, query: Query, entries: Pairs): (r: Query)
    requires WellTypedRegistry(filters)
    ensures NoCustomSorter(filters) ==> r.klass == query.klass && |r.ops| <= |query.ops| + |entries|
    decreases |entries|
  {
    if |entries| == 0 then query
    else
      var q := SortFold(env, filters, query, entries[..|entries| - 1]);
      SortStep(env, filters, q, entries[|entries| - 1].0, entries[|entries| - 1].1)
  }

  /** `apply_sorting`. */
  function ApplySorting(env: Env, filters: seq<Filter>, query: Query, params: Params): (r: Query)
    requires WellTypedRegistry(filters)
    ensures params.sort.None? ==> r == query
    ensures NoCustomSorter(filters) ==> r.klass == query.klass
  {
    SortFold(env, filters, query, match params.sort case None => [] case Some(pairs) => pairs)
  }

  /** `param.to_i` for an optional parameter (`nil.to_i` is 0). */
  function ParamToI(p: Option<string>): int {
    match p
    case None => 0
    case Some(s) => ToI(s)
  }

  /** `handle_pagination`: no limit for `size == 'all'` or a page at least as large as
      the whole result; otherwise `limit(size)` and `offset(size * page)`. */
  function HandlePagination(query: Query, params: Params, totalRows: int): (r: Query)
    ensures r == query <==> (params.size == Some("all") || ParamToI(params.size) >= totalRows)
    ensures r != query ==>
              r.ops == query.ops + [LimitOp(ParamToI(params.size)),
                                    OffsetOp(ParamToI(params.size) * ParamToI(params.page))]
    ensures r.klass == query.klass && r.Order() == query.Order()
  {
    if params.size == Some("all") || ParamToI(params.size) >= totalRows then query
    else
      var size := ParamToI(params.size);
      var r := query.Limit(size).Offset(size * ParamToI(params.page));
      assert query.ops + [LimitOp(size)] + [OffsetOp(size * ParamToI(params.page))]
          == query.ops + [LimitOp(size), OffsetOp(size * ParamToI(params.page))];
      r
  }

  datatype Counts = Counts(totalRows: int, filteredRows: int)

  /** `record_counts`: distinct ids of the base relation, and a second count of the
      filtered relation only when the request carries a filter hash. */
  function RecordCounts(env: Env, base: Query, filtered: Query, params: Params): (r: Counts)
    ensures params.filter.None? ==> r.filteredRows == r.totalRows
    ensures env.count(base.Distinct(), Sym("id")).Grouped? ==>
              r.totalRows == |env.count(base.Distinct(), Sym("id")).groups|
    ensures params.filter.Some? && env.count(filtered, Str(base.klass.tableName + ".id")).Grouped? ==>
              r.filteredRows == |env.count(filtered, Str(base.klass.tableName + ".id")).groups|
  {
    var total := RowCount(env.count(base.Distinct(), Sym("id")));
    if params.filter.Some? then
      Counts(total, RowCount(env.count(filtered, Str(base.klass.tableName + ".id"))))
    else
      Counts(total, total)
  }

  datatype Response = Response(totalRows: int, filteredRows: int, records: Query)

  /** `query_data`: filter, count, paginate, sort. */
  function QueryData(env: Env, h: Handler, base: Query): (r: Response)
    requires WellTypedRegistry(h.filters)
    ensures h.params.filter.None? ==> r.filteredRows == r.totalRows
  {
    var filtered := ApplyFilters(env, h.filters, base, h.params);
    var counts := RecordCounts(env, base, filtered, h.params);
    var paged := HandlePagination(filtered, h.params, counts.totalRows);
    Response(counts.totalRows, counts.filteredRows, ApplySorting(env, h.filters, paged, h.params))
  }
}

=== FILE: phase_properties.dfy ===
/** Properties of the two filter phases of `apply_filters`: the global phase ORs the
    global text over every non-having filter in one WHERE; the per-column phase applies
    each entry only to the non-global filters at its position; and, with names free of
    `?` and no `query` proc, every condition the handler adds carries exactly as many
    bound values as placeholders. */
module PhaseProperties {
  import opened Ruby
  import opened Relation
  import opened AjaxFilter
  import opened AjaxHandler
  import opened ApplyFilterProperties

  /** The registry as it must be for the placeholder guarantee. */
  predicate SafeRegistry(filters: seq<Filter>, klass: Klass) {
    && WellTypedRegistry(filters)
    && NoCustomQuery(filters)
    && forall i :: 0 <= i < |filters| ==> SafeNames(filters[i], klass)
  }

  // ---------------------------------------------------------------- global phase

  /** The WHERE fragments and the values bound to them that a filter adds to a condition. */
  type Part = (seq<string>, seq<Value>)

  /** What one filter adds to a phase's condition when applied on its own to `query`:
      its fragments and values, or nothing when it yields no fragment. A having filter
      adds nothing: the global phase skips it, and it never yields a fragment. */
  function Contribution(env: Env, query: Query, f: Filter, value: string): Part
    requires f.WellTyped()
  {
    if !Blank(f.Having()) then ([], [])
    else
      var out := ApplyFilter(env, query, f, value);
      if |out.fragments| == 0 then ([], []) else (out.fragments, out.binds)
  }

  /** The contribution of every filter, each computed on the same relation. */
  function Contributions(env: Env, query: Query, filters: seq<Filter>, value: string): (r: seq<Part>)
    requires WellTypedRegistry(filters)
    ensures |r| == |filters|
    decreases |filters|
  {
    if |filters| == 0 then []
    else
      Contributions(env, query, filters[..|filters| - 1], value)
      + [Contribution(env, query, filters[|filters| - 1], value)]
  }

  /** Parts concatenated, fragments with fragments and values with values. */
  function Concat(parts: seq<Part>): Part
    decreases |parts|
  {
    if |parts| == 0 then ([], [])
    else
      var rest := Concat(parts[1..]);
      (parts[0].0 + rest.0, parts[0].1 + rest.1)
  }

  lemma {:induction false} ConcatSnoc(parts: seq<Part>, p: Part)
    ensures Concat(parts + [p]) == (Concat(parts).0 + p.0, Concat(parts).1 + p.1)
    decreases |parts|
  {
    var all := parts + [p];
    if |parts| > 0 {
      assert all[0] == parts[0];
      assert all[1..] == parts[1..] + [p];
      ConcatSnoc(parts[1..], p);
      var mid := Concat(parts[1..]);
      assert parts[0].0 + (mid.0 + p.0) == parts[0].0 + mid.0 + p.0;
      assert parts[0].1 + (mid.1 + p.1) == parts[0].1 + mid.1 + p.1;
    } else {
      assert all == [p] && all[1..] == [];
      assert Concat(parts) == ([], []);
      assert p.0 + [] == [] + p.0 && p.1 + [] == [] + p.1;
    }
  }

  lemma AppendAssoc<T>(a: seq<T>, b: seq<T>, c: seq<T>)
    ensures a + b + c == a + (b + c)
  {
  }

  /** Reference definition of the global OR: the filters' contributions, each computed
      independently on the original relation, concatenated in registration order. */
  function GlobalReference(env: Env, query: Query, filters: seq<Filter>, value: string): Part
    requires WellTypedRegistry(filters)
  {
    Concat(Contributions(env, query, filters, value))
  }

  /** A non-having filter's step of the global loop adds its contribution and keeps
      the relation. */
  lemma GlobalStep(env: Env, acc: FilterOutput, f: Filter, value: string)
    requires f.WellTyped() && (!Blank(f.Column()) || Blank(f.QueryProc())) && Blank(f.Having())
    ensures var c := Contribution(env, acc.query, f, value);
            Collect(env, acc, f, value) == FilterOutput(acc.query, acc.fragments + c.0, acc.binds + c.1)
  {
    assert acc.fragments + [] == acc.fragments && acc.binds + [] == acc.binds;
  }

  /** Without `query` procs the global loop never changes the relation, and what it
      collects is the reference concatenation. */
  lemma {:induction false} GlobalFoldIsReference(env: Env, query: Query, filters: seq<Filter>, value: string,
                                                 frags: seq<string>, binds: seq<Value>)
    requires WellTypedRegistry(filters) && NoCustomQuery(filters)
    ensures var ref := GlobalReference(env, query, filters, value);
            GlobalFold(env, filters, FilterOutput(query, frags, binds), value)
            == FilterOutput(query, frags + ref.0, binds + ref.1)
    decreases |filters|
  {
    if |filters| == 0 {
      assert frags + [] == frags && binds + [] == binds;
    } else {
      var init := filters[..|filters| - 1];
      var f := filters[|filters| - 1];
      assert WellTypedRegistry(init) && NoCustomQuery(init) by {
        assert forall i :: 0 <= i < |init| ==> init[i] == filters[i];
      }
      assert f.WellTyped() && (!Blank(f.Column()) || Blank(f.QueryProc()));
      GlobalFoldIsReference(env, query, init, value, frags, binds);
      var r := GlobalReference(env, query, init, value);
      var acc := FilterOutput(query, frags + r.0, binds + r.1);
      var c := Contribution(env, query, f, value);
      if Blank(f.Having()) {
        GlobalStep(env, acc, f, value);
      } else {
        assert c.0 == [] && c.1 == [];
        assert acc.fragments + c.0 == acc.fragments && acc.binds + c.1 == acc.binds;
      }
      assert GlobalFold(env, filters, FilterOutput(query, frags, binds), value)
          == FilterOutput(query, frags + r.0 + c.0, binds + r.1 + c.1);
      assert Contributions(env, query, filters, value) == Contributions(env, query, init, value) + [c];
      ConcatSnoc(Contributions(env, query, init, value), c);
      assert GlobalReference(env, query, filters, value) == (r.0 + c.0, r.1 + c.1);
      AppendAssoc(frags, r.0, c.0);
      AppendAssoc(binds, r.1, c.1);
    }
  }

  /** Having filters take no part in the global phase: removing them from the registry
      changes nothing. */
  function WithoutHaving(filters: seq<Filter>): (r: seq<Filter>)
    ensures forall i :: 0 <= i < |r| ==> r[i] in filters && Blank(r[i].Having())
    ensures forall i :: 0 <= i < |filters| && Blank(filters[i].Having()) ==> filters[i] in r
    decreases |filters|
  {
    if |filters| == 0 then []
    else
      var init := WithoutHaving(filters[..|filters| - 1]);
      var f := filters[|filters| - 1];
      assert forall i :: 0 <= i < |filters| - 1 ==> filters[..|filters| - 1][i] == filters[i];
      if Blank(f.Having()) then init + [f] else init
  }

  lemma {:induction false} GlobalFoldIgnoresHaving(env: Env, filters: seq<Filter>, start: FilterOutput, value: string)
    requires WellTypedRegistry(filters)
    ensures WellTypedRegistry(WithoutHaving(filters))
    ensures GlobalFold(env, filters, start, value) == GlobalFold(env, WithoutHaving(filters), start, value)
    decreases |filters|
  {
    var kept := WithoutHaving(filters);
    assert WellTypedRegistry(kept) by {
      forall i | 0 <= i < |kept| ensures kept[i].WellTyped() {
        assert kept[i] in filters;
      }
    }
    if |filters| > 0 {
      var init := filters[..|filters| - 1];
      var f := filters[|filters| - 1];
      GlobalFoldIgnoresHaving(env, init, start, value);
      if Blank(f.Having()) {
        assert kept[..|kept| - 1] == WithoutHaving(init);
      }
    }
  }

  /** The global phase adds one WHERE: the reference fragments joined with ` OR `, the
      reference values bound in the same order. */
  lemma GlobalPhaseIsOneWhere(env: Env, filters: seq<Filter>, query: Query, params: Params)
    requires WellTypedRegistry(filters) && NoCustomQuery(filters)
    requires GlobalValue(params).Some? && !IsBlankString(GlobalValue(params).value)
    ensures var ref := GlobalReference(env, query, filters, GlobalValue(params).value);
            ApplyGlobalFilters(env, filters, query, params) == query.Where(Join(ref.0, " OR "), ref.1)
  {
    var value := GlobalValue(params).value;
    GlobalFoldIsReference(env, query, filters, value, [], []);
    var ref := GlobalReference(env, query, filters, value);
    assert [] + ref.0 == ref.0 && [] + ref.1 == ref.1;
  }

  /** The global text is read under the key `"999"`, the decimal form of the global
      position. */
  lemma GlobalValueKey(params: Params)
    requires params.filter.Some?
    ensures GlobalValue(params) == Lookup(params.filter.value, "999")
  {
    assert IntToString(GlobalPosition) == "999";
  }

  /** A filter's global contribution binds one value per placeholder. */
  lemma ContributionBalanced(env: Env, query: Query, f: Filter, value: string)
    requires f.WellTyped() && (!Blank(f.Column()) || Blank(f.QueryProc())) && SafeNames(f, query.klass)
    ensures var c := Contribution(env, query, f, value);
            TotalPlaceholders(c.0) == |c.1|
  {
    if !Blank(f.Column()) {
      ColumnFilterBalanced(env, query, f, value);
    }
  }

  lemma {:induction false} GlobalReferenceBalanced(env: Env, query: Query, filters: seq<Filter>, value: string)
    requires SafeRegistry(filters, query.klass)
    ensures var ref := GlobalReference(env, query, filters, value);
            TotalPlaceholders(ref.0) == |ref.1|
    decreases |filters|
  {
    if |filters| > 0 {
      var init := filters[..|filters| - 1];
      var f := filters[|filters| - 1];
      assert SafeRegistry(init, query.klass) by {
        assert forall i :: 0 <= i < |init| ==> init[i] == filters[i];
      }
      GlobalReferenceBalanced(env, query, init, value);
      ContributionBalanced(env, query, f, value);
      var r := GlobalReference(env, query, init, value);
      var c := Contribution(env, query, f, value);
      ConcatSnoc(Contributions(env, query, init, value), c);
      TotalPlaceholdersAppend(r.0, c.0);
    }
  }

  // ---------------------------------------------------------------- per-column phase

  /** The filters the per-column phase applies to the entry keyed `idx`, in order. */
  function Selected(filters: seq<Filter>, idx: string): (r: seq<Filter>)
    ensures forall i :: 0 <= i < |r| ==> r[i] in filters && SelectedFor(r[i], idx)
    ensures forall i :: 0 <= i < |filters| && SelectedFor(filters[i], idx) ==> filters[i] in r
    decreases |filters|
  {
    if |filters| == 0 then []
    else
      var init := Selected(filters[..|filters| - 1], idx);
      var f := filters[|filters| - 1];
      assert forall i :: 0 <= i < |filters| - 1 ==> filters[..|filters| - 1][i] == filters[i];
      if SelectedFor(f, idx) then init + [f] else init
  }

  lemma {:induction false} SelectedWellTyped(filters: seq<Filter>, idx: string)
    requires WellTypedRegistry(filters)
    ensures WellTypedRegistry(Selected(filters, idx))
    decreases |filters|
  {
    if |filters| > 0 {
      var init := filters[..|filters| - 1];
      assert WellTypedRegistry(init) by {
        assert forall i :: 0 <= i < |init| ==> init[i] == filters[i];
      }
      SelectedWellTyped(init, idx);
    }
  }

  /** Every filter given applied in turn, with no selection. */
  function CollectAll(env: Env, filters: seq<Filter>, start: FilterOutput, value: string): FilterOutput
    requires WellTypedRegistry(filters)
    decreases |filters|
  {
    if |filters| == 0 then start
    else Collect(env, CollectAll(env, filters[..|filters| - 1], start, value), filters[|filters| - 1], value)
  }

  /** The per-column loop for one entry is exactly the selected filters applied in
      registration order: filters elsewhere and global filters are never applied. */
  lemma {:induction false} EntryFoldIsSelection(env: Env, filters: seq<Filter>, start: FilterOutput, idx: string, value: string)
    requires WellTypedRegistry(filters)
    ensures WellTypedRegistry(Selected(filters, idx))
    ensures EntryFold(env, filters, start, idx, value) == CollectAll(env, Selected(filters, idx), start, value)
    decreases |filters|
  {
    var sel := Selected(filters, idx);
    assert WellTypedRegistry(sel) by {
      forall i | 0 <= i < |sel| ensures sel[i].WellTyped() {
        assert sel[i] in filters;
      }
    }
    if |filters| > 0 {
      var init := filters[..|filters| - 1];
      var f := filters[|filters| - 1];
      EntryFoldIsSelection(env, init, start, idx, value);
      if SelectedFor(f, idx) {
        assert sel[..|sel| - 1] == Selected(init, idx);
      }
    }
  }

  /** The entry sent under the global key only reaches non-global filters at position
      999; in particular it never re-applies a global filter. */
  lemma GlobalEntryReachesNoGlobalFilter(filters: seq<Filter>)
    ensures forall i :: 0 <= i < |Selected(filters, "999")| ==>
              Selected(filters, "999")[i].position == Int(GlobalPosition)
              && !Truthy(Selected(filters, "999")[i].IsGlobal())
  {
    assert IntToString(GlobalPosition) == "999";
    ToIOfIntToString(GlobalPosition);
  }

  /** No registered filter has a having expression. */
  predicate NoHaving(filters: seq<Filter>) {
    forall i :: 0 <= i < |filters| ==> Blank(filters[i].Having())
  }

  /** What one filter entry `(idx, value)` adds to the per-column condition: the
      contributions of its selected filters, each computed on `query`, in order. */
  function EntryReference(env: Env, query: Query, filters: seq<Filter>, idx: string, value: string): Part
    requires WellTypedRegistry(filters)
  {
    SelectedWellTyped(filters, idx);
    Concat(Contributions(env, query, Selected(filters, idx), value))
  }

  /** The part of every filter entry, in request order. */
  function EntryParts(env: Env, query: Query, filters: seq<Filter>, entries: Pairs): (r: seq<Part>)
    requires WellTypedRegistry(filters)
    ensures |r| == |entries|
    decreases |entries|
  {
    if |entries| == 0 then []
    else
      var last := entries[|entries| - 1];
      EntryParts(env, query, filters, entries[..|entries| - 1]) + [EntryReference(env, query, filters, last.0, last.1)]
  }

  /** Reference definition of the per-column condition: the entries' parts concatenated. */
  function ColumnReference(env: Env, query: Query, filters: seq<Filter>, entries: Pairs): Part
    requires WellTypedRegistry(filters)
  {
    Concat(EntryParts(env, query, filters, entries))
  }

  /** Without `query` procs and having filters, the loop for one entry keeps the relation
      and collects the contributions of the selected filters. */
  lemma {:induction false} EntryFoldIsReference(env: Env, filters: seq<Filter>, query: Query,
                                                frags: seq<string>, binds: seq<Value>, idx: string, value: string)
    requires WellTypedRegistry(filters) && NoCustomQuery(filters) && NoHaving(filters)
    ensures var ref := EntryReference(env, query, filters, idx, value);
            EntryFold(env, filters, FilterOutput(query, frags, binds), idx, value)
            == FilterOutput(query, frags + ref.0, binds + ref.1)
    decreases |filters|
  {
    if |filters| == 0 {
      assert frags + [] == frags && binds + [] == binds;
    } else {
      var init := filters[..|filters| - 1];
      var f := filters[|filters| - 1];
      assert WellTypedRegistry(init) && NoCustomQuery(init) && NoHaving(init) by {
        assert forall i :: 0 <= i < |init| ==> init[i] == filters[i];
      }
      assert f.WellTyped() && (!Blank(f.Column()) || Blank(f.QueryProc())) && Blank(f.Having());
      EntryFoldIsReference(env, init, query, frags, binds, idx, value);
      if SelectedFor(f, idx) {
        var r := EntryReference(env, query, init, idx, value);
        var acc := FilterOutput(query, frags + r.0, binds + r.1);
        var c := Contribution(env, query, f, value);
        GlobalStep(env, acc, f, value);
        SelectedWellTyped(filters, idx);
        SelectedWellTyped(init, idx);
        var sel := Selected(filters, idx);
        assert sel[..|sel| - 1] == Selected(init, idx) && sel[|sel| - 1] == f;
        assert Contributions(env, query, sel, value) == Contributions(env, query, Selected(init, idx), value) + [c];
        ConcatSnoc(Contributions(env, query, Selected(init, idx), value), c);
        AppendAssoc(frags, r.0, c.0);
        AppendAssoc(binds, r.1, c.1);
      }
    }
  }

  /** Without `query` procs and having filters, the per-column loop keeps the relation
      and collects the reference parts of the entries in request order. */
  lemma {:induction false} EntriesFoldIsReference(env: Env, filters: seq<Filter>, query: Query,
                                                  frags: seq<string>, binds: seq<Value>, entries: Pairs)
    requires WellTypedRegistry(filters) && NoCustomQuery(filters) && NoHaving(filters)
    ensures var ref := ColumnReference(env, query, filters, entries);
            EntriesFold(env, filters, FilterOutput(query, frags, binds), entries)
            == FilterOutput(query, frags + ref.0, binds + ref.1)
    decreases |entries|
  {
    if |entries| == 0 {
      assert frags + [] == frags && binds + [] == binds;
    } else {
      var init := entries[..|entries| - 1];
      var last := entries[|entries| - 1];
      EntriesFoldIsReference(env, filters, query, frags, binds, init);
      var r := ColumnReference(env, query, filters, init);
      var e := EntryReference(env, query, filters, last.0, last.1);
      EntryFoldIsReference(env, filters, query, frags + r.0, binds + r.1, last.0, last.1);
      ConcatSnoc(EntryParts(env, query, filters, init), e);
      AppendAssoc(frags, r.0, e.0);
      AppendAssoc(binds, r.1, e.1);
    }
  }

  /** Without `query` procs and having filters, the per-column phase adds one WHERE to
      the relation the global phase left: the reference fragments joined with ` AND `,
      the reference values bound in the same order. */
  lemma PerColumnPhaseIsOneWhere(env: Env, filters: seq<Filter>, query: Query, params: Params)
    requires WellTypedRegistry(filters) && NoCustomQuery(filters) && NoHaving(filters)
    ensures var afterGlobal := ApplyGlobalFilters(env, filters, query, params);
            var ref := ColumnReference(env, afterGlobal, filters, FilterEntries(params));
            ApplyFilters(env, filters, query, params) == afterGlobal.Where(Join(ref.0, " AND "), ref.1)
  {
    var afterGlobal := ApplyGlobalFilters(env, filters, query, params);
    EntriesPhaseIsOneWhere(env, filters, afterGlobal, FilterEntries(params));
  }

  /** The per-column loop started from empty accumulators, then finished with one
      ` AND ` WHERE, adds exactly the reference fragments and values. */
  lemma EntriesPhaseIsOneWhere(env: Env, filters: seq<Filter>, query: Query, entries: Pairs)
    requires WellTypedRegistry(filters) && NoCustomQuery(filters) && NoHaving(filters)
    ensures var acc := EntriesFold(env, filters, FilterOutput(query, [], []), entries);
            var ref := ColumnReference(env, query, filters, entries);
            acc.query.Where(Join(acc.fragments, " AND "), acc.binds) == query.Where(Join(ref.0, " AND "), ref.1)
  {
    EntriesFoldIsReference(env, filters, query, [], [], entries);
    var ref := ColumnReference(env, query, filters, entries);
    assert [] + ref.0 == ref.0 && [] + ref.1 == ref.1;
  }

  /** With a global search text, `apply_filters` is two WHEREs: the global contributions
      ORed, then the per-column contributions ANDed. */
  lemma FiltersAreTwoWheres(env: Env, filters: seq<Filter>, query: Query, params: Params)
    requires WellTypedRegistry(filters) && NoCustomQuery(filters) && NoHaving(filters)
    requires GlobalValue(params).Some? && !IsBlankString(GlobalValue(params).value)
    ensures var global := GlobalReference(env, query, filters, GlobalValue(params).value);
            var afterGlobal := query.Where(Join(global.0, " OR "), global.1);
            var columns := ColumnReference(env, afterGlobal, filters, FilterEntries(params));
            ApplyFilters(env, filters, query, params) == afterGlobal.Where(Join(columns.0, " AND "), columns.1)
  {
    GlobalPhaseIsOneWhere(env, filters, query, params);
    PerColumnPhaseIsOneWhere(env, filters, query, params);
  }

  // ---------------------------------------------------------------- placeholders

  function BalancedOp(op: Op): bool {
    match op
    case WhereOp(fragment, binds) => Placeholders(fragment) == |binds|
    case HavingOp(fragment, _) => Placeholders(fragment) == 1
    case _ => true
  }

  /** `q` is `base` with only balanced WHERE and HAVING calls added. */
  predicate FilteringExtension(q: Query, base: Query) {
    && q.klass == base.klass
    && |base.ops| <= |q.ops|
    && q.ops[..|base.ops|] == base.ops
    && forall i :: |base.ops| <= i < |q.ops| ==> (q.ops[i].WhereOp? || q.ops[i].HavingOp?) && BalancedOp(q.ops[i])
  }

  /** Appending one WHERE whose placeholders match its values keeps the extension. */
  lemma WhereKeepsExtension(q: Query, base: Query, fragment: string, binds: seq<Value>)
    requires FilteringExtension(q, base) && Placeholders(fragment) == |binds|
    ensures FilteringExtension(q.Where(fragment, binds), base)
  {
    var r := q.Where(fragment, binds);
    if r != q {
      assert r.ops[..|q.ops|] == q.ops;
      assert r.ops[..|base.ops|] == q.ops[..|base.ops|];
    }
  }

  /** The loop invariant of both phases: the relation only gained balanced calls and
      the collected fragments hold one placeholder per collected value. */
  predicate Invariant(acc: FilterOutput, base: Query) {
    FilteringExtension(acc.query, base) && TotalPlaceholders(acc.fragments) == |acc.binds|
  }

  /** One filter applied on an extension keeps it an extension, and binds one value per
      placeholder of its own fragments. */
  lemma ApplyFilterKeepsExtension(env: Env, q: Query, base: Query, f: Filter, value: string)
    requires f.WellTyped() && (!Blank(f.Column()) || Blank(f.QueryProc())) && SafeNames(f, base.klass)
    requires FilteringExtension(q, base)
    ensures FilteringExtension(ApplyFilter(env, q, f, value).query, base)
    ensures TotalPlaceholders(ApplyFilter(env, q, f, value).fragments) == |ApplyFilter(env, q, f, value).binds|
  {
    var out := ApplyFilter(env, q, f, value);
    if !Blank(f.Column()) {
      ColumnFilterBalanced(env, q, f, value);
    } else if Active(env, q, f, value) && !Blank(f.Having()) {
      HavingFilterAddsHaving(env, q, f, value);
      HavingFragmentPlaceholders(ToS(f.Having()));
      assert out.query.ops[..|q.ops|] == q.ops;
      assert out.query.ops[..|base.ops|] == q.ops[..|base.ops|];
    }
  }

  lemma CollectKeepsInvariant(env: Env, acc: FilterOutput, base: Query, f: Filter, value: string)
    requires f.WellTyped() && (!Blank(f.Column()) || Blank(f.QueryProc())) && SafeNames(f, base.klass)
    requires Invariant(acc, base)
    ensures Invariant(Collect(env, acc, f, value), base)
  {
    var out := ApplyFilter(env, acc.query, f, value);
    ApplyFilterKeepsExtension(env, acc.query, base, f, value);
    if |out.fragments| > 0 {
      TotalPlaceholdersAppend(acc.fragments, out.fragments);
    }
  }

  lemma {:induction false} EntryFoldKeepsInvariant(env: Env, filters: seq<Filter>, start: FilterOutput, base: Query,
                                                   idx: string, value: string)
    requires SafeRegistry(filters, base.klass) && Invariant(start, base)
    ensures Invariant(EntryFold(env, filters, start, idx, value), base)
    decreases |filters|
  {
    if |filters| > 0 {
      var init := filters[..|filters| - 1];
      assert SafeRegistry(init, base.klass) by {
        assert forall i :: 0 <= i < |init| ==> init[i] == filters[i];
      }
      EntryFoldKeepsInvariant(env, init, start, base, idx, value);
      var f := filters[|filters| - 1];
      if SelectedFor(f, idx) {
        CollectKeepsInvariant(env, EntryFold(env, init, start, idx, value), base, f, value);
      }
    }
  }

  lemma {:induction false} EntriesFoldKeepsInvariant(env: Env, filters: seq<Filter>, start: FilterOutput, base: Query,
                                                     entries: Pairs)
    requires SafeRegistry(filters, base.klass) && Invariant(start, base)
    ensures Invariant(EntriesFold(env, filters, start, entries), base)
    decreases |entries|
  {
    if |entries| > 0 {
      var init := entries[..|entries| - 1];
      EntriesFoldKeepsInvariant(env, filters, start, base, init);
      var last := entries[|entries| - 1];
      EntryFoldKeepsInvariant(env, filters, EntriesFold(env, filters, start, init), base, last.0, last.1);
    }
  }

  /** The global phase adds at most one WHERE, balanced. */
  lemma GlobalPhaseBalanced(env: Env, filters: seq<Filter>, base: Query, params: Params)
    requires SafeRegistry(filters, base.klass)
    ensures FilteringExtension(ApplyGlobalFilters(env, filters, base, params), base)
    ensures var r := ApplyGlobalFilters(env, filters, base, params);
            |r.ops| <= |base.ops| + 1 && forall i :: |base.ops| <= i < |r.ops| ==> r.ops[i].WhereOp?
  {
    assert FilteringExtension(base, base) by {
      assert base.ops[..|base.ops|] == base.ops;
    }
    if GlobalValue(params).Some? && !IsBlankString(GlobalValue(params).value) {
      var value := GlobalValue(params).value;
      GlobalPhaseIsOneWhere(env, filters, base, params);
      var ref := GlobalReference(env, base, filters, value);
      GlobalReferenceBalanced(env, base, filters, value);
      NoPlaceholders(" OR ");
      JoinPlaceholders(ref.0, " OR ");
      WhereKeepsExtension(base, base, Join(ref.0, " OR "), ref.1);
    }
  }

  /** With names free of `?` and no `query` proc, `apply_filters` only adds WHERE and
      HAVING calls to the relation, and each of them binds exactly one value per `?`. */
  lemma ApplyFiltersBalanced(env: Env, filters: seq<Filter>, base: Query, params: Params)
    requires SafeRegistry(filters, base.klass)
    ensures FilteringExtension(ApplyFilters(env, filters, base, params), base)
  {
    var afterGlobal := ApplyGlobalFilters(env, filters, base, params);
    GlobalPhaseBalanced(env, filters, base, params);
    var start := FilterOutput(afterGlobal, [], []);
    EntriesFoldKeepsInvariant(env, filters, start, base, FilterEntries(params));
    var acc := EntriesFold(env, filters, start, FilterEntries(params));
    NoPlaceholders(" AND ");
    JoinPlaceholders(acc.fragments, " AND ");
    WhereKeepsExtension(acc.query, base, Join(acc.fragments, " AND "), acc.binds);
  }
}

=== FILE: query_properties.dfy ===
/** Properties of sorting, pagination and `query_data` as a whole: the last sort entry
    that names a registered filter decides the ordering, the counts are taken on the
    filtered relation before any LIMIT, OFFSET or ORDER BY, and the records are that
    same relation with only paging and ordering added. */
module QueryDataProperties {
  import opened Ruby
  import opened Relation
  import opened AjaxFilter
  import opened AjaxHandler

  /** The filter a sort entry names, if any is registered at its position. */
  function SortTarget(filters: seq<Filter>, entry: (string, string)): Option<Filter> {
    Find(filters, Int(ToI(entry.0)))
  }

  /** `q` is `base` with only `reorder` calls added. */
  predicate ReordersOf(q: Query, base: Query) {
    && q.klass == base.klass
    && |base.ops| <= |q.ops|
    && q.ops[..|base.ops|] == base.ops
    && forall i :: |base.ops| <= i < |q.ops| ==> q.ops[i].ReorderOp?
  }

  /** `q` is `base` with only `limit`, `offset` and `reorder` calls added. */
  predicate PagedAndOrderedOf(q: Query, base: Query) {
    && q.klass == base.klass
    && |base.ops| <= |q.ops|
    && q.ops[..|base.ops|] == base.ops
    && forall i :: |base.ops| <= i < |q.ops| ==> q.ops[i].LimitOp? || q.ops[i].OffsetOp? || q.ops[i].ReorderOp?
  }

  /** The direction a sort code sent as a decimal integer asks for: even codes ascend
      and odd codes descend, negative ones included (`-1 % 2` is 1 in Ruby). */
  lemma DirectionOfIntegerCode(n: int)
    ensures DirectionOf(IntToString(n)) == if n % 2 == 0 then Asc else Desc
  {
    ToIOfIntToString(n);
  }

  /** A sort entry naming a filter without a `sorter_query` proc reorders by that
      filter's default clause. */
  lemma SortStepResolved(env: Env, filters: seq<Filter>, q: Query, idx: string, order: string)
    requires WellTypedRegistry(filters) && NoCustomSorter(filters)
    requires Find(filters, Int(ToI(idx))).Some?
    ensures var f := Find(filters, Int(ToI(idx))).value;
            f.WellTyped()
            && SortStep(env, filters, q, idx, order)
               == q.Reorder(SortClause(FilterKlass(f, q.klass), f, DirectionOf(order)))
  {
    var k := FindIndex(filters, Int(ToI(idx))).value;
    assert Find(filters, Int(ToI(idx))).value == filters[k];
    assert Blank(filters[k].SorterQuery());
  }

  /** One sort entry, without `sorter_query` procs, adds at most one `reorder`. */
  lemma SortStepOnlyReorders(env: Env, filters: seq<Filter>, q: Query, base: Query, idx: string, order: string)
    requires WellTypedRegistry(filters) && NoCustomSorter(filters) && ReordersOf(q, base)
    ensures ReordersOf(SortStep(env, filters, q, idx, order), base)
    ensures ReordersOf(SortStep(env, filters, q, idx, order), q)
    ensures |SortStep(env, filters, q, idx, order).ops| <= |q.ops| + 1
  {
    if Find(filters, Int(ToI(idx))).Some? {
      SortStepResolved(env, filters, q, idx, order);
      var f := Find(filters, Int(ToI(idx))).value;
      var clause := SortClause(FilterKlass(f, q.klass), f, DirectionOf(order));
      ReorderKeepsReorders(q, base, clause);
      assert q.ops[..|q.ops|] == q.ops;
      ReorderKeepsReorders(q, q, clause);
    } else {
      assert q.ops[..|q.ops|] == q.ops;
    }
  }

  lemma ReorderKeepsReorders(q: Query, base: Query, clause: string)
    requires ReordersOf(q, base)
    ensures ReordersOf(q.Reorder(clause), base)
  {
    var r := q.Reorder(clause);
    assert r.ops[..|q.ops|] == q.ops;
    assert r.ops[..|base.ops|] == q.ops[..|base.ops|];
    forall i | |base.ops| <= i < |r.ops| ensures r.ops[i].ReorderOp? {
      if i < |q.ops| { assert r.ops[i] == q.ops[i]; }
    }
  }

  /** Sort entries that name no registered filter are skipped. */
  lemma {:induction false} UnresolvedSortEntriesSkipped(env: Env, filters: seq<Filter>, query: Query, entries: Pairs)
    requires WellTypedRegistry(filters)
    requires forall j :: 0 <= j < |entries| ==> SortTarget(filters, entries[j]).None?
    ensures SortFold(env, filters, query, entries) == query
    decreases |entries|
  {
    if |entries| > 0 {
      UnresolvedSortEntriesSkipped(env, filters, query, entries[..|entries| - 1]);
      assert SortTarget(filters, entries[|entries| - 1]).None?;
    }
  }

  /** Without `sorter_query` procs, sorting only adds `reorder` calls. */
  lemma {:induction false} SortFoldOnlyReorders(env: Env, filters: seq<Filter>, query: Query, entries: Pairs)
    requires WellTypedRegistry(filters) && NoCustomSorter(filters)
    ensures ReordersOf(SortFold(env, filters, query, entries), query)
    decreases |entries|
  {
    if |entries| == 0 {
      assert query.ops[..|query.ops|] == query.ops;
    } else {
      var init := entries[..|entries| - 1];
      SortFoldOnlyReorders(env, filters, query, init);
      var last := entries[|entries| - 1];
      SortStepOnlyReorders(env, filters, SortFold(env, filters, query, init), query, last.0, last.1);
    }
  }

  /** A last sort entry that names a registered filter sets the ordering to that
      filter's column in its direction. */
  lemma ResolvedLastEntrySetsOrder(env: Env, filters: seq<Filter>, query: Query, entries: Pairs)
    requires WellTypedRegistry(filters) && NoCustomSorter(filters)
    requires |entries| > 0 && SortTarget(filters, entries[|entries| - 1]).Some?
    ensures var last := entries[|entries| - 1];
            var f := SortTarget(filters, last).value;
            SortFold(env, filters, query, entries).Order()
            == Some(SortClause(FilterKlass(f, query.klass), f, DirectionOf(last.1)))
  {
    var init := entries[..|entries| - 1];
    var last := entries[|entries| - 1];
    var q := SortFold(env, filters, query, init);
    SortStepResolved(env, filters, q, last.0, last.1);
  }

  /** The last sort entry that names a registered filter decides the ordering: its
      filter's column in its direction, whatever the entries before it asked for. */
  lemma {:induction false} LastSortEntryWins(env: Env, filters: seq<Filter>, query: Query, entries: Pairs, k: nat)
    requires WellTypedRegistry(filters) && NoCustomSorter(filters)
    requires k < |entries| && SortTarget(filters, entries[k]).Some?
    requires forall j :: k < j < |entries| ==> SortTarget(filters, entries[j]).None?
    ensures var f := SortTarget(filters, entries[k]).value;
            SortFold(env, filters, query, entries).Order()
            == Some(SortClause(FilterKlass(f, query.klass), f, DirectionOf(entries[k].1)))
    decreases |entries|
  {
    if k == |entries| - 1 {
      ResolvedLastEntrySetsOrder(env, filters, query, entries);
    } else {
      var init := entries[..|entries| - 1];
      assert init[k] == entries[k];
      assert forall j :: k < j < |init| ==> init[j] == entries[j];
      LastSortEntryWins(env, filters, query, init, k);
      assert SortTarget(filters, entries[|entries| - 1]).None?;
    }
  }

  /** What `query_data` answers, layer by layer: the total is the distinct count of the
      base relation; the filtered count, when a filter hash was sent, is taken on the
      filtered relation itself, before paging and ordering; and the records are the
      filtered relation with only LIMIT, OFFSET and ORDER BY added. */
  lemma QueryDataLayering(env: Env, h: Handler, base: Query)
    requires WellTypedRegistry(h.filters) && NoCustomSorter(h.filters)
    ensures var filtered := ApplyFilters(env, h.filters, base, h.params);
            var r := QueryData(env, h, base);
            && r.totalRows == RowCount(env.count(base.Distinct(), Sym("id")))
            && (h.params.filter.Some? ==>
                  r.filteredRows == RowCount(env.count(filtered, Str(base.klass.tableName + ".id"))))
            && PagedAndOrderedOf(r.records, filtered)
  {
    var filtered := ApplyFilters(env, h.filters, base, h.params);
    var counts := RecordCounts(env, base, filtered, h.params);
    var paged := HandlePagination(filtered, h.params, counts.totalRows);
    var entries := match h.params.sort case None => [] case Some(pairs) => pairs;
    SortFoldOnlyReorders(env, h.filters, paged, entries);
    PaginationOnlyPages(filtered, h.params, counts.totalRows);
    PagingThenReorders(filtered, paged, SortFold(env, h.filters, paged, entries));
  }

  /** The records are paged against the total row count: unless `size` is `all` or
      covers every row, the two calls right after the filtered relation are
      `limit(size)` and `offset(size * page)`; otherwise only reorders follow it. */
  lemma QueryDataPaging(env: Env, h: Handler, base: Query)
    requires WellTypedRegistry(h.filters) && NoCustomSorter(h.filters)
    ensures var filtered := ApplyFilters(env, h.filters, base, h.params);
            var r := QueryData(env, h, base);
            var size := ParamToI(h.params.size);
            h.params.size != Some("all") && size < r.totalRows ==>
              && |filtered.ops| + 2 <= |r.records.ops|
              && r.records.ops[|filtered.ops|] == LimitOp(size)
              && r.records.ops[|filtered.ops| + 1] == OffsetOp(size * ParamToI(h.params.page))
    ensures var filtered := ApplyFilters(env, h.filters, base, h.params);
            var r := QueryData(env, h, base);
            h.params.size == Some("all") || ParamToI(h.params.size) >= r.totalRows ==>
              ReordersOf(r.records, filtered)
  {
    var filtered := ApplyFilters(env, h.filters, base, h.params);
    var counts := RecordCounts(env, base, filtered, h.params);
    var paged := HandlePagination(filtered, h.params, counts.totalRows);
    var entries := match h.params.sort case None => [] case Some(pairs) => pairs;
    var records := SortFold(env, h.filters, paged, entries);
    assert QueryData(env, h, base).records == records;
    SortFoldOnlyReorders(env, h.filters, paged, entries);
    if paged != filtered {
      var n := |filtered.ops|;
      assert records.ops[n] == records.ops[..|paged.ops|][n] == paged.ops[n];
      assert records.ops[n + 1] == records.ops[..|paged.ops|][n + 1] == paged.ops[n + 1];
    }
  }

  /** Pagination adds nothing but a `limit` followed by an `offset`. */
  lemma PaginationOnlyPages(query: Query, params: Params, totalRows: int)
    ensures PagedAndOrderedOf(HandlePagination(query, params, totalRows), query)
    ensures var r := HandlePagination(query, params, totalRows);
            r.klass == query.klass
            && (|r.ops| == |query.ops|
                || (|r.ops| == |query.ops| + 2 && r.ops[|query.ops|].LimitOp? && r.ops[|query.ops| + 1].OffsetOp?))
  {
    var paged := HandlePagination(query, params, totalRows);
    assert paged.ops[..|query.ops|] == query.ops;
  }

  lemma PagingThenReorders(filtered: Query, paged: Query, records: Query)
    requires PagedAndOrderedOf(paged, filtered) && ReordersOf(records, paged)
    ensures PagedAndOrderedOf(records, filtered)
  {
    assert records.ops[..|filtered.ops|] == records.ops[..|paged.ops|][..|filtered.ops|];
    forall i | |filtered.ops| <= i < |records.ops|
      ensures records.ops[i].LimitOp? || records.ops[i].OffsetOp? || records.ops[i].ReorderOp?
    {
      if i < |paged.ops| {
        assert records.ops[i] == records.ops[..|paged.ops|][i];
      }
    }
  }

  /** The ordering of the records: that of the last sort entry naming a registered
      filter, or, when none does, whatever ordering the filtered relation already had.
      Paging never changes it. */
  lemma QueryDataOrder(env: Env, h: Handler, base: Query)
    requires WellTypedRegistry(h.filters) && NoCustomSorter(h.filters)
    ensures var filtered := ApplyFilters(env, h.filters, base, h.params);
            var entries := match h.params.sort case None => [] case Some(pairs) => pairs;
            (forall j :: 0 <= j < |entries| ==> SortTarget(h.filters, entries[j]).None?) ==>
              QueryData(env, h, base).records.Order() == filtered.Order()
    ensures var filtered := ApplyFilters(env, h.filters, base, h.params);
            var entries := match h.params.sort case None => [] case Some(pairs) => pairs;
            forall k :: 0 <= k < |entries| && SortTarget(h.filters, entries[k]).Some?
                        && (forall j :: k < j < |entries| ==> SortTarget(h.filters, entries[j]).None?) ==>
              QueryData(env, h, base).records.Order()
              == Some(SortClause(FilterKlass(SortTarget(h.filters, entries[k]).value, filtered.klass),
                                 SortTarget(h.filters, entries[k]).value, DirectionOf(entries[k].1)))
  {
    var filtered := ApplyFilters(env, h.filters, base, h.params);
    var counts := RecordCounts(env, base, filtered, h.params);
    var paged := HandlePagination(filtered, h.params, counts.totalRows);
    var entries := match h.params.sort case None => [] case Some(pairs) => pairs;
    assert QueryData(env, h, base).records == SortFold(env, h.filters, paged, entries);
    if forall j :: 0 <= j < |entries| ==> SortTarget(h.filters, entries[j]).None? {
      UnresolvedSortEntriesSkipped(env, h.filters, paged, entries);
    }
    forall k | 0 <= k < |entries| && SortTarget(h.filters, entries[k]).Some?
               && (forall j :: k < j < |entries| ==> SortTarget(h.filters, entries[j]).None?)
      ensures SortFold(env, h.filters, paged, entries).Order()
              == Some(SortClause(FilterKlass(SortTarget(h.filters, entries[k]).value, filtered.klass),
                                 SortTarget(h.filters, entries[k]).value, DirectionOf(entries[k].1)))
    {
      LastSortEntryWins(env, h.filters, paged, entries, k);
    }
  }
}

=== FILE: relation.dfy ===
/** A symbolic ActiveRecord relation: the model class it queries and the list of
    query-builder calls made on it, in order. What the database makes of them is
    outside the model; only the handful of facts the handler depends on are fixed here. */
module Relation {
  import opened Ruby

  datatype Op =
    | WhereOp(fragment: string, binds: seq<Value>)
    | HavingOp(fragment: string, bind: Value)
    | ReorderOp(clause: string)
    | LimitOp(n: int)
    | OffsetOp(n: int)
    | DistinctOp

  /** The ordering in force after `ops`: `reorder` replaces every earlier ordering. */
  function LastOrder(ops: seq<Op>): Option<string>
    decreases |ops|
  {
    if |ops| == 0 then None
    else if ops[|ops| - 1].ReorderOp? then Some(ops[|ops| - 1].clause)
    else LastOrder(ops[..|ops| - 1])
  }

  datatype Query = Query(klass: Klass, ops: seq<Op>) {

    function Order(): Option<string> {
      LastOrder(ops)
    }

    /** `where(fragment, *binds)`. A lone blank condition leaves the relation as it is. */
    function Where(fragment: string, binds: seq<Value>): (r: Query)
      ensures r.klass == klass && r.Order() == Order()
      ensures r == this <==> (|binds| == 0 && IsBlankString(fragment))
      ensures r != this ==> r.ops == ops + [WhereOp(fragment, binds)]
    {
      if |binds| == 0 && IsBlankString(fragment) then this
      else
        var r := Query(klass, ops + [WhereOp(fragment, binds)]);
        assert r.ops[..|ops|] == ops;
        r
    }

    /** `having(fragment, bind)` with a non-blank fragment. */
    function Having(fragment: string, bind: Value): (r: Query)
      ensures r.klass == klass && r.Order() == Order()
      ensures r.ops == ops + [HavingOp(fragment, bind)]
    {
      var r := Query(klass, ops + [HavingOp(fragment, bind)]);
      assert r.ops[..|ops|] == ops;
      r
    }

    /** `reorder(clause)`: the clause becomes the only ordering. */
    function Reorder(clause: string): (r: Query)
      ensures r.klass == klass && r.Order() == Some(clause)
      ensures r.ops == ops + [ReorderOp(clause)]
    {
      Query(klass, ops + [ReorderOp(clause)])
    }

    function Limit(n: int): (r: Query)
      ensures r.klass == klass && r.Order() == Order()
      ensures r.ops == ops + [LimitOp(n)]
    {
      var r := Query(klass, ops + [LimitOp(n)]);
      assert r.ops[..|ops|] == ops;
      r
    }

    function Offset(n: int): (r: Query)
      ensures r.klass == klass && r.Order() == Order()
      ensures r.ops == ops + [OffsetOp(n)]
    {
      var r := Query(klass, ops + [OffsetOp(n)]);
      assert r.ops[..|ops|] == ops;
      r
    }

    function Distinct(): (r: Query)
      ensures r.klass == klass && r.ops == ops + [DistinctOp]
    {
      Query(klass, ops + [DistinctOp])
    }
  }

  /** What `count` returns: a number, or a hash of groups for grouped and having queries. */
  datatype Count = Scalar(n: int) | Grouped(groups: map<Value, int>)

  /** A count normalised as the handler does: a hash counts as its number of keys. */
  function RowCount(c: Count): int {
    match c
    case Scalar(n) => n
    case Grouped(groups) => |groups|
  }

  /** `Array#join(sep)` on strings. */
  function Join(xs: seq<string>, sep: string): string
    decreases |xs|
  {
    if |xs| == 0 then ""
    else if |xs| == 1 then xs[0]
    else xs[0] + sep + Join(xs[1..], sep)
  }

  /** The number of `?` placeholders in an SQL fragment. */
  function Placeholders(s: string): nat
    decreases |s|
  {
    if |s| == 0 then 0 else (if s[0] == '?' then 1 else 0) + Placeholders(s[1..])
  }

  lemma {:induction false} PlaceholdersAppend(a: string, b: string)
    ensures Placeholders(a + b) == Placeholders(a) + Placeholders(b)
    decreases |a|
  {
    if |a| > 0 {
      assert (a + b)[1..] == a[1..] + b;
      PlaceholdersAppend(a[1..], b);
    } else {
      assert a + b == b;
    }
  }

  lemma {:induction false} NoPlaceholders(s: string)
    requires '?' !in s
    ensures Placeholders(s) == 0
    decreases |s|
  {
    if |s| > 0 {
      NoPlaceholders(s[1..]);
    }
  }

  function TotalPlaceholders(xs: seq<string>): nat
    decreases |xs|
  {
    if |xs| == 0 then 0 else Placeholders(xs[0]) + TotalPlaceholders(xs[1..])
  }

  lemma {:induction false} TotalPlaceholdersAppend(a: seq<string>, b: seq<string>)
    ensures TotalPlaceholders(a + b) == TotalPlaceholders(a) + TotalPlaceholders(b)
    decreases |a|
  {
    if |a| > 0 {
      assert (a + b)[1..] == a[1..] + b;
      TotalPlaceholdersAppend(a[1..], b);
    } else {
      assert a + b == b;
    }
  }

  /** Joining fragments with a separator free of `?` neither adds nor loses a placeholder. */
  lemma {:induction false} JoinPlaceholders(xs: seq<string>, sep: string)
    requires Placeholders(sep) == 0
    ensures Placeholders(Join(xs, sep)) == TotalPlaceholders(xs)
    decreases |xs|
  {
    if |xs| > 1 {
      JoinPlaceholders(xs[1..], sep);
      PlaceholdersAppend(xs[0], sep);
      PlaceholdersAppend(xs[0] + sep, Join(xs[1..], sep));
    } else if |xs| == 1 {
      assert TotalPlaceholders(xs[1..]) == 0;
    }
  }
}

=== FILE: ruby.dfy ===
/** The slice of Ruby and ActiveSupport behaviour the tablesorter handler leans on:
    truthiness, `blank?`/`presence`, `String#strip`, `String#to_i` and `Integer#to_s`. */
module Ruby {

  datatype Option<T> = None | Some(value: T)

  /** An ActiveRecord model class, reduced to what the handler asks of it:
      its `table_name` and which entries of its `columns_hash` have type `:integer`. */
  datatype Klass = Klass(tableName: string, integerColumns: set<string>)

  /** The Ruby objects that occur as filter positions and filter option values. */
  datatype Value =
    | Nil
    | Bool(b: bool)
    | Str(s: string)
    | Sym(name: string)
    | Int(i: int)
    | Const(name: string)   // a non-model constant such as `DateTime`
    | Model(klass: Klass)   // an ActiveRecord model class
    | Proc(id: nat)         // a user-supplied lambda; what it does is a parameter of the handler

  /** Only `nil` and `false` are falsy. */
  predicate Truthy(v: Value) {
    !(v.Nil? || v == Bool(false))
  }

  /** The `[[:space:]]` class of ActiveSupport's `String#blank?` (Unicode White_Space). */
  predicate IsSpace(c: char) {
    var n := c as int;
    (9 <= n <= 13) || n == 0x20 || n == 0x85 || n == 0xA0 || n == 0x1680
    || (0x2000 <= n <= 0x200A) || n == 0x2028 || n == 0x2029 || n == 0x202F
    || n == 0x205F || n == 0x3000
  }

  /** `String#blank?`: empty or whitespace only. */
  predicate IsBlankString(s: string) {
    forall i :: 0 <= i < |s| ==> IsSpace(s[i])
  }

  /** `Object#blank?` for the objects of `Value`: `nil`, `false`, a whitespace-only
      string and an empty symbol are blank; numbers, classes and procs never are. */
  predicate Blank(v: Value) {
    match v
    case Nil => true
    case Bool(b) => !b
    case Str(s) => IsBlankString(s)
    case Sym(name) => |name| == 0
    case _ => false
  }

  /** `Object#presence`: the receiver when it is present, `nil` otherwise. */
  function Presence(v: Value): (r: Value)
    ensures r == Nil || r == v
    ensures r == Nil <==> Blank(v)
    ensures !Blank(r) || r == Nil
  {
    if Blank(v) then Nil else v
  }

  /** The characters `String#strip` removes at either end: NUL and ASCII whitespace. */
  predicate IsStripSpace(c: char) {
    c as int == 0 || 9 <= c as int <= 13 || c == ' '
  }

  function LStrip(s: string): (r: string)
    ensures |r| <= |s| && r == s[|s| - |r|..]
    ensures forall k :: 0 <= k < |s| - |r| ==> IsStripSpace(s[k])
    ensures |r| == 0 || !IsStripSpace(r[0])
    decreases |s|
  {
    if |s| > 0 && IsStripSpace(s[0]) then LStrip(s[1..]) else s
  }

  function RStrip(s: string): (r: string)
    ensures |r| <= |s| && r == s[..|r|]
    ensures forall k :: |r| <= k < |s| ==> IsStripSpace(s[k])
    ensures |r| == 0 || !IsStripSpace(r[|r| - 1])
    decreases |s|
  {
    if |s| > 0 && IsStripSpace(s[|s| - 1]) then RStrip(s[..|s| - 1]) else s
  }

  /** `String#strip`: neither end of the result is strippable whitespace. */
  function Strip(s: string): (r: string)
    ensures |r| <= |s|
    ensures |r| == 0 || (!IsStripSpace(r[0]) && !IsStripSpace(r[|r| - 1]))
  {
    RStrip(LStrip(s))
  }

  /** What `strip` cuts: the first `a` characters and some last ones, all of them
      strippable whitespace. */
  predicate StrippedAt(s: string, r: string, a: int) {
    && 0 <= a && a + |r| <= |s| && r == s[a..a + |r|]
    && (forall k :: 0 <= k < a ==> IsStripSpace(s[k]))
    && (forall k :: a + |r| <= k < |s| ==> IsStripSpace(s[k]))
  }

  /** `strip` returns a middle slice of its input and cuts nothing but strippable
      whitespace off either end. */
  lemma StripCuts(s: string)
    ensures StrippedAt(s, Strip(s), |s| - |LStrip(s)|)
  {
    var l := LStrip(s);
    var r := RStrip(l);
    SuffixThenPrefix(s, l, r);
    assert StrippedAt(s, r, |s| - |l|);
    assert r == Strip(s);
  }

  /** Cutting a strippable prefix and then a strippable suffix leaves a middle slice. */
  lemma SuffixThenPrefix(s: string, l: string, r: string)
    requires |l| <= |s| && l == s[|s| - |l|..]
    requires forall k :: 0 <= k < |s| - |l| ==> IsStripSpace(s[k])
    requires |r| <= |l| && r == l[..|r|]
    requires forall k :: |r| <= k < |l| ==> IsStripSpace(l[k])
    ensures StrippedAt(s, r, |s| - |l|)
  {
    var a := |s| - |l|;
    assert r == s[a..a + |r|];
    forall k | a + |r| <= k < |s| ensures IsStripSpace(s[k]) {
      assert s[k] == l[k - a];
    }
  }

  predicate IsDigit(c: char) {
    '0' <= c <= '9'
  }

  function DigitValue(c: char): nat
    requires IsDigit(c)
  {
    c as int - '0' as int
  }

  function DigitChar(d: nat): (c: char)
    requires d < 10
    ensures IsDigit(c) && DigitValue(c) == d
  {
    (d + '0' as int) as char
  }

  predicate AllDigits(s: string) {
    forall i :: 0 <= i < |s| ==> IsDigit(s[i])
  }

  /** `s =~ /\A\d+\Z/`: ASCII digits, at least one, optionally followed by a single final newline. */
  predicate MatchesDigitsPattern(s: string) {
    || (|s| > 0 && AllDigits(s))
    || (|s| > 1 && s[|s| - 1] == '\n' && AllDigits(s[..|s| - 1]))
  }

  /** After `strip` the newline alternative of `/\A\d+\Z/` cannot occur. */
  lemma StrippedDigitsPattern(s: string)
    ensures MatchesDigitsPattern(Strip(s)) <==> (|Strip(s)| > 0 && AllDigits(Strip(s)))
  {
  }

  /** The whitespace `String#to_i` skips before the number. */
  predicate IsLeadingSpace(c: char) {
    9 <= c as int <= 13 || c == ' '
  }

  function SkipLeadingSpace(s: string): (r: string)
    ensures |r| <= |s| && r == s[|s| - |r|..]
    ensures |r| == 0 || !IsLeadingSpace(r[0])
    decreases |s|
  {
    if |s| > 0 && IsLeadingSpace(s[0]) then SkipLeadingSpace(s[1..]) else s
  }

  /** The value of the decimal numeral at the start of `s`, read after `acc`:
      digits, with single underscores allowed between two digits. */
  function NumeralValue(s: string, acc: nat): (r: nat)
    ensures |s| == 0 || !IsDigit(s[0]) ==> r == acc
    decreases |s|
  {
    if |s| == 0 || !IsDigit(s[0]) then acc
    else if |s| >= 3 && s[1] == '_' && IsDigit(s[2]) then NumeralValue(s[2..], acc * 10 + DigitValue(s[0]))
    else NumeralValue(s[1..], acc * 10 + DigitValue(s[0]))
  }

  /** `String#to_i`: leading whitespace, an optional sign, then the leading numeral;
      0 when there is none. */
  function ToI(s: string): (r: int)
    ensures var t := SkipLeadingSpace(s);
            (|t| == 0 || (!IsDigit(t[0]) && t[0] != '-' && t[0] != '+')) ==> r == 0
  {
    var t := SkipLeadingSpace(s);
    if |t| > 0 && t[0] == '-' then -(NumeralValue(t[1..], 0) as int)
    else if |t| > 0 && t[0] == '+' then NumeralValue(t[1..], 0)
    else NumeralValue(t, 0)
  }

  function NatToString(n: nat): (s: string)
    ensures |s| > 0 && AllDigits(s)
    decreases n
  {
    if n < 10 then [DigitChar(n)] else NatToString(n / 10) + [DigitChar(n % 10)]
  }

  /** `Integer#to_s`: decimal digits, with a leading `-` for a negative number. */
  function IntToString(i: int): string {
    if i < 0 then "-" + NatToString(-i) else NatToString(i)
  }

  /** The objects whose `to_s` the model spells out: everything but a model class (whose
      name the model does not keep) and a proc (whose `to_s` carries an address). */
  predicate Printable(v: Value) {
    !v.Model? && !v.Proc?
  }

  /** `to_s`, also what string interpolation `"#{v}"` inserts; `nil.to_s` is empty. */
  function ToS(v: Value): string
    requires Printable(v)
  {
    match v
    case Nil => ""
    case Bool(b) => if b then "true" else "false"
    case Str(s) => s
    case Sym(name) => name
    case Int(i) => IntToString(i)
    case Const(name) => name
  }

  lemma {:induction false} NumeralValueAppend(a: string, b: string, acc: nat)
    requires AllDigits(a) && AllDigits(b)
    ensures NumeralValue(a + b, acc) == NumeralValue(b, NumeralValue(a, acc))
    decreases |a|
  {
    if |a| > 0 {
      assert (a + b)[1..] == a[1..] + b;
      assert (a + b)[0] == a[0];
      if |a + b| >= 3 {
        assert IsDigit((a + b)[1]);
      }
      NumeralValueAppend(a[1..], b, acc * 10 + DigitValue(a[0]));
    } else {
      assert a + b == b;
    }
  }

  lemma {:induction false} NumeralValueOfNatToString(n: nat)
    ensures NumeralValue(NatToString(n), 0) == n
    decreases n
  {
    if n >= 10 {
      var c := DigitChar(n % 10);
      NumeralValueOfNatToString(n / 10);
      NumeralValueAppend(NatToString(n / 10), [c], 0);
    }
  }

  lemma SkipLeadingSpaceOfDigits(s: string)
    requires |s| > 0 && (IsDigit(s[0]) || s[0] == '-')
    ensures SkipLeadingSpace(s) == s
  {
  }

  /** `to_i` reads back what `to_s` writes, for every integer. */
  lemma {:induction false} ToIOfIntToString(i: int)
    ensures ToI(IntToString(i)) == i
  {
    var n: nat := if i < 0 then -i else i;
    var digits := NatToString(n);
    NumeralValueOfNatToString(n);
    if i < 0 {
      var s := "-" + digits;
      assert s[1..] == digits;
      SkipLeadingSpaceOfDigits(s);
    } else {
      SkipLeadingSpaceOfDigits(digits);
    }
  }
}
